=== FILE: README.md ===
# Play-and-win promo game: a Dafny model of its core

This project models the logic of a small browser promotion game. A visitor plays
"Spin & Win" or "Scratch & Win", draws a weighted reward, and receives a claim code. If
they win, they leave a name and a WhatsApp number.

The three pieces of logic in the model:

- **`GameDatabase` ledger (`js/db.js`).** It keeps the play records and their counters in
  one storage key, and the admin credentials and per-game reward tables in another.
  Its operations are:
  - save a play;
  - list plays with filters, newest first;
  - mark a play claimed;
  - compute statistics;
  - export CSV;
  - check admin credentials;
  - read game settings;
  - check a code's uniqueness;
  - initialise and clear storage.
- **Game session (`js/game.js`).** This covers:
  - the weighted reward draw;
  - the bounded retry that looks for an unused claim code;
  - the `isPlaying` / `currentGame` / `gameResult` flags across start, finish and reset;
  - the two default reward tables;
  - the 100-event analytics buffer.
- **String helpers (`js/utility.js`).** These are:
  - the claim-code shape;
  - form validation;
  - the HTML-escaping sanitiser;
  - the WhatsApp share-link builder.

Everything is pure. The two storage keys form one immutable `Store` value, in which a
missing key is `None`. Each boolean-returning mutation (`saveGameResult`,
`updateClaimedStatus`, `clearAllData`) gives back an `Outcome`: the boolean and the store afterwards. Four kinds of outside input become parameters:

- **The browser's non-determinism.** The clock (`now`), `Math.random()` draws (`u`,
  `draws`), generated ids, the user-agent string and the claim-code generator are passed in.
- **A failed `localStorage` write.** This is the `writeOk` flag.
- **`encodeURIComponent`.** It is the `encode` function argument.
- **`toLocaleString`.** It is the `dateOf` argument.

Probabilities are exact reals. JavaScript's falsy checks on optional strings are written
out as `Utility.Truthy`: a value counts only when it is present and non-empty.

Modules, in dependency order:

| module | file | models |
|---|---|---|
| `Optional`, `Counting`, `Text` | optional.dfy, counting.dfy, text.dfy | option type, counting and filtering, the JavaScript string builtins the site calls (`trim`, `\s`, `join`, `slice`, `substring`, `includes`, `toLowerCase`, decimal `toString`), and `Split`, `IndexOf` and `LastIndexOf`, which only the round-trip readers use |
| `Utility` | utility.dfy | `js/utility.js` helpers |
| `Rewards` | rewards.dfy | reward tables and `selectRandomReward` |
| `Ledger` | ledger.dfy | the stored blobs, `initializeStorage`, `clearAllData`, `saveGameResult`, `updateClaimedStatus`, `validateAdminCredentials`, `getGameSettings` |
| `LedgerQuery` | query.dfy | `getGameResults`, `isCodeUnique` |
| `LedgerReport` | report.dfy | `getStatistics`, `exportToCSV` |
| `Session` | session.dfy | `GameController` flags and `generateUniqueRewardCode` |
| `Analytics` | analytics.dfy | `GameAnalytics` |

## Model

| member | source | states |
|---|---|---|
| Utility.GenerateUniqueCode | js/utility.js:8-19 | With unit draws, each character before the clock digits comes from `A-Z0-9`, one per draw. With a clock of at least 1000, exactly four decimal digits follow, whose value is the clock mod 10000, so the code is four characters longer than the number of draws. |
| Utility.ClockSuffixDigits | js/utility.js:17 | `Date.now().toString().slice(-4)` is all digits and at most 4 long. From 1000 on it is exactly 4 digits denoting `now % 10000`. |
| Utility.IsPhoneNumber | js/utility.js:36-37 | The pattern `^[\+]?[1-9][\d]{0,15}$` holds exactly when some optional `+` is followed by a digit 1-9 and then 0 to 15 more digits. |
| Utility.ValidateFormInputs | js/utility.js:27-45 | `isValid` holds iff no error is recorded, and only the two fields can carry one. The name error is present iff the name is missing or its trimmed UTF-16 length is below 2. The whatsapp error is present iff the number is missing or fails the phone pattern once whitespace is removed. Each error carries its fixed message. |
| Utility.SanitizeInput | js/utility.js:52-62 | As written: a non-string gives `""`. On a string, the output has no `'`, every `&` begins `&amp;` or `&#x27;`, and neither end is whitespace. |
| Utility.EscapeAsWrittenIsTable | js/utility.js:56-60 | The chain of five `replace` calls equals one left-to-right pass over the table `& -> &amp;`, `' -> &#x27;`. The `<`, `>` and `"` steps change nothing. |
| Utility.SanitizeInputRoundTrip | js/utility.js:55-61 | Unescaping the sanitised text gives back the trimmed input, so no text is lost or merged. |
| Utility.SanitizeInputKeepsMarkup | js/utility.js:57-59 | Counterexample for the finding below: a `<`, `>` or `"` in the input survives sanitising. |
| Utility.SanitizeHtml | js/utility.js:52-62 | Corrected sanitiser. On a string, the output has none of `< > " '`, every `&` starts one of the five HTML entities, and neither end is whitespace. A non-string gives `""`. |
| Utility.SanitizeHtmlRoundTrip | js/utility.js:55-61 | Unescaping the corrected output gives back the trimmed input. |
| Utility.UnescapeEscape | js/utility.js:56-60 | For any well-formed entity table, unescaping undoes escaping. This is the partner of both sanitisers. |
| Utility.GenerateWhatsAppURL | js/utility.js:189-198 | The link starts with `https://wa.me/`, followed by the phone number (possibly empty), `?text=` and the encoded message. |
| Utility.ShareMessageRoundTrip | js/utility.js:190 | The message `Hi, I played your game and won <reward>. My code is <code>` parses back into the reward and code when the code has no `.`. |
| Utility.GeneratedCodeNoDot | js/utility.js:8-19 | A generated claim code never holds a `.`: its characters come from `A-Z0-9` and the clock digits. |
| Utility.GeneratedCodeShares | js/utility.js:189-190 | For every reward, the share message built with a generated code parses back into that reward and code. |
| Utility.WhatsAppURLRoundTrip | js/utility.js:193-197 | A link built for a phone number without `?` parses back into that number and the encoded message. |
| Rewards.SelectRandomReward | js/game.js:189-216 | A missing or empty table gives `{No Win, 1}`. Otherwise the result is a row of the table. |
| Rewards.FirstCrossing | js/game.js:200-207 | The loop returns the first row whose running sum reaches the draw, and every earlier running sum is below it. If none does, every running sum is below the draw. |
| Rewards.SelectionInterval | js/game.js:196-207 | With non-negative weights and a draw not above the total, row `k` is chosen exactly when the draw lies in `(PrefixSum(k), PrefixSum(k+1)]`. The first interval is also closed at 0. |
| Rewards.FallbackUnreachable | js/game.js:196-211 | With a non-negative total and a draw in [0, 1], some running sum reaches the scaled draw, so the fallback to the last row is never taken. |
| Rewards.PrefixMonotone | js/game.js:200-202 | With non-negative weights the running sum never decreases. |
| Rewards.CrossingMonotone | js/game.js:200-211 | A larger scaled draw never selects an earlier row. |
| Rewards.SelectMonotone | js/game.js:196-211 | With a non-negative total, a larger `Math.random()` value never selects an earlier row. |
| Rewards.DefaultSpinRewards | js/game.js:377-386 | The spin defaults have six rows with non-negative weights summing to exactly 1. |
| Rewards.DefaultScratchRewards | js/game.js:392-401 | The scratch defaults have six rows with non-negative weights summing to exactly 1. |
| Rewards.OnlyRowWindow | js/game.js:189-211 | When the table sums to 1 and row `k`'s text is unique, a draw yields that text exactly when it falls in the row's interval. |
| Rewards.DefaultNoWinWindow | js/game.js:377-401 | With either default table, a draw yields "No Win" exactly when it lies in (0.70, 0.95]. |
| Ledger.SeededTablesAreDefaults | js/db.js:39-59 | The tables seeded into admin storage equal the game script's defaults. |
| Ledger.InitializeStorage | js/db.js:17-69 | Each key is written only when empty, so nothing present is overwritten. New data is empty with in-step counters, and new admin data is the seeded default. |
| Ledger.InitializeIdempotent | js/db.js:19-32 | Initialising twice is the same as initialising once. |
| Ledger.ClearAllData | js/db.js:438-447 | Answers true iff the write succeeds. Then the data is empty with zero counters and the admin configuration is kept (or seeded when missing). A failed write leaves the data key removed, answers false and does not touch the admin key. |
| Ledger.SaveGameResult | js/db.js:134-177 | Succeeds iff the data exists, all five required fields are truthy and the write succeeds. A failure changes nothing. A success appends exactly one record at the end, keeps earlier records, adds 1 to `totalPlays` and 1 to `totalWins` iff the reward is not "No Win", sets `lastUpdated`, and leaves admin data alone. The appended record is the one `NewRecordShape` describes. |
| Ledger.NewRecordShape | js/db.js:148-159 | A new record is unclaimed, keeps game, reward and code, and carries the clock. Its name and number went through the as-written `sanitizeInput`: they hold no `'`, and unescaping `&amp;` and `&#x27;` gives back the trimmed input. At most 100 user-agent characters are stored, taken as a prefix. |
| Ledger.StoredNameKeepsQuote | js/db.js:149 | A `"` in a submitted name reaches the stored record. |
| Ledger.SaveKeepsConsistent | js/db.js:20-27 | Saving preserves `totalPlays` = the number of records and `totalWins = #(reward != "No Win")`. |
| Ledger.FindIndex | js/db.js:233 | `findIndex` returns the first record with the id, or `None` when no record has it. |
| Ledger.UpdateClaimedStatus | js/db.js:228-245 | Succeeds iff the data exists, some record has the id and the write succeeds. A failure changes nothing. A success changes only the first matching record's `claimed` and `claimedAt` (the clock `now` when claimed, null otherwise), and sets `lastUpdated` to `now`. |
| Ledger.UpdateKeepsConsistent | js/db.js:233-238 | Claiming preserves the counter invariant. |
| Ledger.ValidateAdminCredentials | js/db.js:372-383 | True iff admin data with credentials exists and both email and password equal the stored ones exactly. |
| Ledger.SeededCredentialsOnly | js/db.js:34-37 | On a fresh store, and after clearing the data, only the seeded pair is accepted. |
| Ledger.GetGameSettings | js/db.js:390-400 | Present iff admin data, its settings and the key all exist, and then it is the stored entry. |
| Ledger.SeededSettings | js/db.js:38-61 | A fresh store answers `spinGame` and `scratchGame` with the enabled default tables, and every other own key of the settings object with nothing. |
| LedgerQuery.ApplyFiltersIsConjunction | js/db.js:192-210 | The five successive filters keep exactly the records that pass every filter that is set, in stored order. |
| LedgerQuery.GetGameResults | js/db.js:184-220 | No data gives `[]`. Otherwise the result is a permutation of the stored records that pass every set filter, in non-increasing timestamp order. |
| LedgerQuery.GetGameResultsMembers | js/db.js:189-213 | A record is returned iff it is stored and matches game, claimed, `dateFrom <= timestamp <= dateTo`, and a case-insensitive reward substring, each only when set. |
| LedgerQuery.SortNewestFirst | js/db.js:213 | The sort is a permutation with non-increasing timestamps. |
| LedgerQuery.SortStable | js/db.js:213 | The sort is stable: records with the same timestamp keep their stored order. |
| LedgerQuery.NewestFirstPairwise | js/db.js:213 | Newest first holds for every pair, not only neighbours. |
| LedgerQuery.IsCodeUnique | js/db.js:407-415 | True iff no stored record has the code, and always true without data. |
| LedgerQuery.SavedCodeTaken | js/db.js:154-162 | After a successful save the saved code is no longer unique. |
| LedgerQuery.ClearedIsEmpty | js/db.js:438-447 | After clearing, listing gives `[]` and every code is unique. |
| LedgerReport.GetStatistics | js/db.js:251-284 | No data gives `None`. Otherwise `totalPlays` is the number of records. Wins, claims, spin plays, scratch plays and plays since one week before `now` are each the number of records passing that filter. Spin plus scratch plays and each other count are at most `totalPlays`. The win rate is `Percent(wins, plays)` and the claim rate `Percent(claimed, wins)`. `lastUpdated` is copied. |
| LedgerReport.Percent | js/db.js:273-274 | A rate is 0 for a zero denominator. Otherwise rate × whole = 100 × part. It is never negative and stays within 100 when the part is at most the whole. |
| LedgerReport.StatisticsMatchCounters | js/db.js:256-258 | When the counters are in step, the statistics' plays and wins equal the stored counters. |
| LedgerReport.GamePlaysPartition | js/db.js:262-263 | Spin plays plus scratch plays equal the number of records whose game is one of the two. |
| LedgerReport.StatisticsAfterSave | js/db.js:162-168 | A successful save adds one play. It adds one win iff the reward is not "No Win", one spin or scratch play by its game, and one recent play iff the save's time is within the week before the statistics' clock. Claims are unchanged. |
| LedgerReport.StatisticsAfterClaim | js/db.js:228-245 | A successful claim update moves `totalClaimed` by the change in the one record's status: claiming an unclaimed record adds one, unclaiming a claimed one removes one. Plays, wins, spin, scratch and recent plays are unchanged. |
| LedgerReport.ExportToCSV | js/db.js:291-331 | The export is `""` exactly when there is nothing to export. Otherwise it starts with the header line. Nothing given means every stored record, newest first. |
| LedgerReport.ExportLines | js/db.js:311-325 | When no cell holds a newline, the export splits at newlines into the header and exactly one line per record, in order. |
| LedgerReport.FieldEnd | js/db.js:325 | The site has no CSV reader. This is the reader that is the partner of the written rows and header: the field end it finds is always a comma inside the line. Its quote handling is stated by `FieldEndIsFirstOutside`. |
| LedgerReport.FieldEndIsFirstOutside | js/db.js:325 | The field end is the first comma outside double quotes: the scan is outside quotes there, and every comma met outside quotes lies at or after it. |
| LedgerReport.CsvCellsJoin | js/db.js:325 | Joining cells with commas and reading the line back quote-aware gives the same cells, when each cell is either free of commas and quotes or quoted with no quote inside. |
| LedgerReport.RowReadBack | js/db.js:311-322 | A record whose quoted texts hold no `"` and whose unquoted texts hold no comma or `"` reads back into its ten cells. Dropping the quotes gives the name, game, reward and date unchanged. |
| LedgerReport.ExportCells | js/db.js:311-325 | When no cell holds a newline, each such record's line of the export reads back into its ten cells. Commas may appear inside the quoted cells, such as a locale date. |
| LedgerReport.HeaderCells | js/db.js:297-308 | The header line reads back into the ten column names. |
| Session.GenerateUniqueRewardCode | js/game.js:222-233 | Between 1 and 10 generator calls are made, and the code is the last one generated. Every earlier code was taken, and a taken code is returned only after all 10. |
| Session.FirstFreeCode | js/game.js:227-230 | The loop stops exactly at the first free code among the first ten. |
| Session.PlayCodeShape | js/game.js:222-233 | A game's code is one of the first ten generated. If it is taken in storage, all ten were. |
| Session.StartSpinGameOutcome | js/game.js:41-82 | A start while playing changes nothing. Otherwise the spin ends with `isPlaying` false, `currentGame` and the result's game "Spin & Win", and the reward text from the table in effect ("No Win" if it is empty). |
| Session.StartScratchGameOutcome | js/game.js:87-131 | The same as for the spin, for "Scratch & Win". |
| Session.BeginSpin | js/game.js:42-58 | The spin's first step is ignored while playing. Otherwise it marks the spin playing and draws from the stored spin table, or from the default when none is stored. |
| Session.StartsIgnoredWhileSpinning | js/game.js:42-88 | While the wheel turns, both start buttons are ignored. |
| Session.ResetGame | js/game.js:340-360 | Resetting clears the current game and result and stops playing. |
| Session.ResetAllowsPlay | js/game.js:340-353 | After a reset, either start runs to completion. |
| Session.FreshStoreNoWin | js/game.js:56-107 | On fresh admin storage both games end in "No Win" exactly when the draw lies in (0.70, 0.95]. |
| Analytics.TrackEvent | js/game.js:431-452 | After tracking, at most 100 events remain and the last is the new event. Below the cap, the new event is appended to the old log. |
| Analytics.Push | js/game.js:442-447 | At or above the cap the oldest event is dropped and the other 99 keep their order. |
| Analytics.ReplayIsWindow | js/game.js:442-447 | However many events are tracked, the log holds exactly the most recent 100, in order. |
| Analytics.GetAnalytics | js/game.js:459-469 | `totalEvents` is the log length. Each of the four counts is the number of logged events of its type, and together they add up to at most `totalEvents`. |
| Analytics.CountedTypesSum | js/game.js:464-467 | The four counts add up to the number of events whose type is one of the four. |
| Analytics.TrackedEventCounts | js/game.js:431-467 | Below the cap, tracking an event adds one to `totalEvents` and one to the count of its own type, and leaves the other three counts unchanged. |
| Analytics.OtherEventKeepsCounts | js/game.js:431-467 | Below the cap, an event of another type adds one to `totalEvents` and leaves the four counts unchanged. |

## Left out

- `localStorage` and JSON: the two keys are one in-memory value. Malformed stored JSON, fields missing from a parsed blob (such as `gameResults`), and the exceptions they raise are not modelled.
- A failed write inside `initializeStorage` throws. The model's `InitializeStorage` always succeeds. Only `ClearAllData` models the throw, as a failed write of the data key.
- Ledger.ClearAllData: when the admin key is also missing, the source's second write can fail after the data key is written. The model's one `writeOk` flag covers only the first write.
- Floating point: probabilities and rates are exact reals. `toFixed(1)` rounding and its string result are not modelled.
- Locale dates: the CSV date cell comes from the `dateOf` parameter.
- `encodeURIComponent` is the `encode` parameter, and its escaping is not modelled.
- `generateId`, `Math.random`, `Date.now` and `navigator.userAgent` are parameters. Where the source reads the clock twice in one call, the model uses one `now`.
- UTF-16: strings are sequences of characters. `substring(0, 100)` and `substring(0, 50)` cut at characters, not code units.
- `toLowerCase` folds ASCII letters only.
- LedgerQuery.GetGameResults: `dateFrom` and `dateTo` are integers, so negative bounds are modelled (they count as set, being truthy). Non-numeric bounds, such as strings or `Date` objects that JavaScript's `>=` and `<=` would coerce, are not represented.
- `getGameResults` treats a `claimed` filter of `null` as unset. The source filters with it (and keeps nothing).
- `downloadCSV`, `backupData`, `showGameResult`, `performScratch`, `getSessionStats`, the DOM, timers, notifications and the event listeners are UI and browser glue, outside this model.
- The analytics event's `data` object and `screenSize` are not modelled.
- The `console.log` in `trackEvent` and the `console.error` calls in every catch block are console output, outside this model.
- Session.StartSpinGameOutcome: it covers the spin when nothing else runs during the three-second await. Interleavings are covered only for the two start buttons (`StartsIgnoredWhileSpinning`). A `resetGame` during the await is not modelled: the Play Again button from an earlier game (js/game.js:326-333) stays on the page and can trigger one.
- The `enabled` flag of a game setting is stored and returned. The game script never reads it, and neither does the model.
- Ledger.GetGameSettings: it looks up own keys of the stored settings only. JavaScript's `gameSettings[gameType] || null` also finds inherited `Object.prototype` members such as `toString`, `constructor` and `__proto__`. It would also turn a falsy stored entry into null, but the model's entries are never falsy.
- LedgerReport.ExportCells: the source escapes nothing. A `"` in a quoted cell or a comma in an unquoted cell breaks the read-back, and `sanitizeInput` lets `"` through into stored names (`StoredNameKeepsQuote`). The read-back is promised only for records free of both.
- LedgerReport.GetStatistics: `claimRate` has no upper bound, because a "No Win" record can be marked claimed. It is stated non-negative only.

## Findings

| source | as written | input that shows it | evidently intended | confidence | as-written member | corrected member |
|---|---|---|---|---|---|---|
| js/utility.js:57-59 | `sanitizeInput` replaces `<`, `>` and `"` with themselves, so markup passes through unescaped although the function exists to prevent XSS | `sanitizeInput("<b>")` keeps `<b>` | replace them with `&lt;`, `&gt;` and `&quot;` | medium, not executed | Utility.SanitizeInput, Utility.SanitizeInputKeepsMarkup | Utility.SanitizeHtml, Utility.SanitizeHtmlRoundTrip |

The ledger stores names and numbers through the as-written `Utility.SanitizeInput`, as the code does. The corrected `Utility.SanitizeHtml` and its round trip stand on their own.

=== FILE: analytics.dfy ===
/**
  `GameAnalytics`: a session's event log, capped at the most recent 100 events, and the
  per-type counts reported from it. The clock and the user-agent string are parameters.
 */
module Analytics {
  import opened Text
  import Counting

  /** At most this many events are kept. */
  const EventCap: nat := 100

  /** Stored user-agent strings are cut to this many characters. */
  const EventAgentLimit: nat := 50

  const GameStartEvent: string := "game_start"
  const GameCompleteEvent: string := "game_complete"
  const GameWinEvent: string := "game_win"
  const FormSubmitEvent: string := "form_submit"

  /** One tracked event; `sessionTime` is the clock minus the session start. */
  datatype Event = Event(eventType: string, timestamp: nat, sessionTime: int, userAgent: string)

  datatype Analytics = Analytics(sessionStart: nat, events: seq<Event>)

  /** What `getAnalytics()` reports besides the event list itself. */
  datatype Report = Report(
    sessionDuration: int,
    totalEvents: nat,
    gameStarts: nat,
    gameCompletions: nat,
    wins: nat,
    formSubmissions: nat)

  /** `new GameAnalytics()` at clock `now`. */
  function NewAnalytics(now: nat): (a: Analytics)
    ensures a.events == [] && a.sessionStart == now
  {
    Analytics(now, [])
  }

  /** The most recent `EventCap` events of a log. */
  function Window(es: seq<Event>): (w: seq<Event>)
    ensures |w| == if |es| <= EventCap then |es| else EventCap
    ensures w == es[|es| - |w|..]
  {
    if |es| <= EventCap then es else es[|es| - EventCap..]
  }

  /** `events.push(event)`, then `slice(-100)` when the log grew past the cap. */
  function Push(events: seq<Event>, e: Event): (r: seq<Event>)
    ensures |r| <= EventCap
    ensures r != [] && r[|r| - 1] == e
    ensures |events| < EventCap ==> r == events + [e]
    ensures |events| >= EventCap ==> |r| == EventCap && r[..|r| - 1] == events[|events| - (EventCap - 1)..]
  {
    var grown := events + [e];
    if |grown| > EventCap then grown[|grown| - EventCap..] else grown
  }

  function MakeEvent(a: Analytics, eventType: string, now: nat, userAgent: string): Event {
    Event(eventType, now, now - a.sessionStart, FirstN(userAgent, EventAgentLimit))
  }

  /** `trackEvent(eventType)` at clock `now`. */
  function TrackEvent(a: Analytics, eventType: string, now: nat, userAgent: string): (r: Analytics)
    ensures r.sessionStart == a.sessionStart
    ensures |r.events| <= EventCap
    ensures r.events != [] && r.events[|r.events| - 1] == MakeEvent(a, eventType, now, userAgent)
    ensures |a.events| < EventCap ==> r.events == a.events + [MakeEvent(a, eventType, now, userAgent)]
  {
    Analytics(a.sessionStart, Push(a.events, MakeEvent(a, eventType, now, userAgent)))
  }

  /** Pushing onto the window of a log gives the window of the longer log. */
  lemma PushWindow(es: seq<Event>, e: Event)
    ensures Push(Window(es), e) == Window(es + [e])
  {
    var w := Window(es);
    var longer := es + [e];
    if |es| >= EventCap {
      assert (w + [e])[|w + [e]| - EventCap..] == longer[|longer| - EventCap..];
    }
  }

  /** The buffer after pushing the events of `es` one by one onto an empty log. */
  function Replay(es: seq<Event>): seq<Event> {
    if es == [] then [] else Push(Replay(es[..|es| - 1]), es[|es| - 1])
  }

  /** However many events were tracked, the log holds exactly the most recent 100, in order. */
  lemma {:induction false} ReplayIsWindow(es: seq<Event>)
    ensures Replay(es) == Window(es)
  {
    if es != [] {
      var init, last := es[..|es| - 1], es[|es| - 1];
      assert es == init + [last];
      ReplayStep(init, last);
      ReplayIsWindow(init);
      PushWindow(init, last);
    }
  }

  lemma ReplayStep(init: seq<Event>, last: Event)
    ensures Replay(init + [last]) == Push(Replay(init), last)
  {
    var es := init + [last];
    assert es[..|es| - 1] == init;
  }

  function TypeOf(e: Event): string {
    e.eventType
  }

  const CountedTypes: seq<string> := [GameStartEvent, GameCompleteEvent, GameWinEvent, FormSubmitEvent]

  /** `getAnalytics()` at clock `now`. */
  function GetAnalytics(a: Analytics, now: nat): (r: Report)
    ensures r.totalEvents == |a.events|
    ensures r.sessionDuration == now - a.sessionStart
    ensures r.gameStarts + r.gameCompletions + r.wins + r.formSubmissions <= r.totalEvents
    ensures r.gameStarts == Counting.CountKey(a.events, TypeOf, GameStartEvent)
    ensures r.gameCompletions == Counting.CountKey(a.events, TypeOf, GameCompleteEvent)
    ensures r.wins == Counting.CountKey(a.events, TypeOf, GameWinEvent)
    ensures r.formSubmissions == Counting.CountKey(a.events, TypeOf, FormSubmitEvent)
  {
    var es := a.events;
    var starts := Counting.CountKey(es, TypeOf, GameStartEvent);
    var completions := Counting.CountKey(es, TypeOf, GameCompleteEvent);
    var wins := Counting.CountKey(es, TypeOf, GameWinEvent);
    var submissions := Counting.CountKey(es, TypeOf, FormSubmitEvent);
    CountedTypesSum(es);
    Report(now - a.sessionStart, |es|, starts, completions, wins, submissions)
  }

  /** The four counted types are distinct, so the four counts add up to at most the log's length. */
  lemma CountedTypesSum(es: seq<Event>)
    ensures
      Counting.CountKey(es, TypeOf, GameStartEvent) + Counting.CountKey(es, TypeOf, GameCompleteEvent)
      + Counting.CountKey(es, TypeOf, GameWinEvent) + Counting.CountKey(es, TypeOf, FormSubmitEvent)
      == Counting.CountKeyIn(es, TypeOf, {GameStartEvent, GameCompleteEvent, GameWinEvent, FormSubmitEvent})
  {
    var ks := CountedTypes;
    CountedTypesDistinct();
    Counting.SumCountsCons(es, TypeOf, GameStartEvent, ks[1..]);
    Counting.SumCountsCons(es, TypeOf, GameCompleteEvent, ks[2..]);
    Counting.SumCountsCons(es, TypeOf, GameWinEvent, ks[3..]);
    Counting.SumCountsCons(es, TypeOf, FormSubmitEvent, []);
    assert ks == [GameStartEvent] + ks[1..] && ks[1..] == [GameCompleteEvent] + ks[2..];
    assert ks[2..] == [GameWinEvent] + ks[3..] && ks[3..] == [FormSubmitEvent] + [];
    Counting.SumCountsBound(es, TypeOf, ks);
    assert (set k | k in ks) == {GameStartEvent, GameCompleteEvent, GameWinEvent, FormSubmitEvent};
  }

  lemma CountedTypesDistinct()
    ensures Counting.Distinct(CountedTypes)
  {
    forall i, j | 0 <= i < j < |CountedTypes|
      ensures CountedTypes[i] != CountedTypes[j]
    {
      assert |CountedTypes[i]| != |CountedTypes[j]|;
    }
  }

  /**
    Below the cap, tracking an event adds one to `totalEvents` and one to the count of
    its own type, and leaves the other counts unchanged.
   */
  lemma TrackedEventCounts(a: Analytics, eventType: string, now: nat, userAgent: string, later: nat)
    requires |a.events| < EventCap
    ensures
      var before, after := GetAnalytics(a, later), GetAnalytics(TrackEvent(a, eventType, now, userAgent), later);
      && after.totalEvents == before.totalEvents + 1
      && after.gameStarts == before.gameStarts + (if eventType == GameStartEvent then 1 else 0)
      && after.gameCompletions == before.gameCompletions + (if eventType == GameCompleteEvent then 1 else 0)
      && after.wins == before.wins + (if eventType == GameWinEvent then 1 else 0)
      && after.formSubmissions == before.formSubmissions + (if eventType == FormSubmitEvent then 1 else 0)
  {
    var e := MakeEvent(a, eventType, now, userAgent);
    Counting.CountKeyAppend(a.events, e, TypeOf, GameStartEvent);
    Counting.CountKeyAppend(a.events, e, TypeOf, GameCompleteEvent);
    Counting.CountKeyAppend(a.events, e, TypeOf, GameWinEvent);
    Counting.CountKeyAppend(a.events, e, TypeOf, FormSubmitEvent);
  }

  /** Tracking an event of another type leaves the four counts unchanged below the cap. */
  lemma OtherEventKeepsCounts(a: Analytics, eventType: string, now: nat, userAgent: string, later: nat)
    requires |a.events| < EventCap && eventType !in CountedTypes
    ensures
      var before, after := GetAnalytics(a, later), GetAnalytics(TrackEvent(a, eventType, now, userAgent), later);
      && after.totalEvents == before.totalEvents + 1
      && after.gameStarts == before.gameStarts && after.gameCompletions == before.gameCompletions
      && after.wins == before.wins && after.formSubmissions == before.formSubmissions
  {
    TrackedEventCounts(a, eventType, now, userAgent, later);
    assert eventType != GameStartEvent && eventType != GameCompleteEvent;
    assert eventType != GameWinEvent && eventType != FormSubmitEvent;
  }
}

=== FILE: counting.dfy ===
/**
  Counting and filtering over sequences: the `filter(...)` and `filter(...).length`
  idioms the ledger statistics and the analytics counts are built from.
 */
module Counting {

  /** Number of elements satisfying `p`, i.e. `s.filter(p).length`. */
  function CountWhere<T>(s: seq<T>, p: T -> bool): (n: nat)
    ensures n <= |s|
  {
    if s == [] then 0 else (if p(s[0]) then 1 else 0) + CountWhere(s[1..], p)
  }

  /** The elements satisfying `p`, in their original order, i.e. `s.filter(p)`. */
  function Filter<T>(s: seq<T>, p: T -> bool): (r: seq<T>)
    ensures |r| == CountWhere(s, p)
    ensures forall i :: 0 <= i < |r| ==> p(r[i])
    ensures forall i :: 0 <= i < |s| && p(s[i]) ==> s[i] in r
    ensures multiset(r) <= multiset(s)
  {
    if s == [] then []
    else
      var rest := Filter(s[1..], p);
      assert s == [s[0]] + s[1..];
      if p(s[0]) then [s[0]] + rest else rest
  }

  /** Appending one element adds one to the count exactly when it satisfies `p`. */
  lemma {:induction false} CountAppend<T>(s: seq<T>, x: T, p: T -> bool)
    ensures CountWhere(s + [x], p) == CountWhere(s, p) + (if p(x) then 1 else 0)
  {
    if s != [] {
      assert (s + [x])[1..] == s[1..] + [x];
      CountAppend(s[1..], x, p);
    }
  }

  /** Replacing one element moves the count by what the old and new elements contribute. */
  lemma {:induction false} CountUpdate<T>(s: seq<T>, i: nat, x: T, p: T -> bool)
    requires i < |s|
    ensures CountWhere(s[i := x], p) + (if p(s[i]) then 1 else 0) == CountWhere(s, p) + (if p(x) then 1 else 0)
  {
    if i == 0 {
      assert s[i := x][1..] == s[1..];
    } else {
      assert s[i := x][1..] == s[1..][i - 1 := x];
      CountUpdate(s[1..], i - 1, x, p);
    }
  }

  /** Two sequences that agree position by position on the predicates have equal counts. */
  lemma {:induction false} CountPointwise<T>(a: seq<T>, b: seq<T>, p: T -> bool, q: T -> bool)
    requires |a| == |b|
    requires forall i :: 0 <= i < |a| ==> p(a[i]) == q(b[i])
    ensures CountWhere(a, p) == CountWhere(b, q)
  {
    if a != [] {
      assert p(a[0]) == q(b[0]);
      CountPointwise(a[1..], b[1..], p, q);
    }
  }

  /** Filtering with two predicates that agree everywhere gives the same sequence. */
  lemma {:induction false} FilterExt<T>(s: seq<T>, p: T -> bool, q: T -> bool)
    requires forall x :: p(x) == q(x)
    ensures Filter(s, p) == Filter(s, q)
  {
    if s != [] {
      FilterExt(s[1..], p, q);
    }
  }

  /** Filtering with a predicate every element satisfies changes nothing. */
  lemma {:induction false} FilterAll<T>(s: seq<T>, p: T -> bool)
    requires forall i :: 0 <= i < |s| ==> p(s[i])
    ensures Filter(s, p) == s
  {
    if s != [] {
      assert p(s[0]);
      FilterAll(s[1..], p);
      assert s == [s[0]] + s[1..];
    }
  }

  /** Filtering twice is filtering once with the conjunction. */
  lemma {:induction false} FilterTwice<T>(s: seq<T>, p: T -> bool, q: T -> bool, both: T -> bool)
    requires forall x :: both(x) == (p(x) && q(x))
    ensures Filter(Filter(s, p), q) == Filter(s, both)
  {
    if s != [] {
      FilterTwice(s[1..], p, q, both);
      var rest := Filter(s[1..], p);
      if p(s[0]) {
        assert Filter(s, p) == [s[0]] + rest;
        assert ([s[0]] + rest)[1..] == rest;
      }
    }
  }

  /** Number of elements whose key is `k`. */
  function CountKey<T, K(==)>(s: seq<T>, key: T -> K, k: K): (n: nat)
    ensures n <= |s|
  {
    if s == [] then 0 else (if key(s[0]) == k then 1 else 0) + CountKey(s[1..], key, k)
  }

  lemma {:induction false} CountKeyAppend<T, K>(s: seq<T>, x: T, key: T -> K, k: K)
    ensures CountKey(s + [x], key, k) == CountKey(s, key, k) + (if key(x) == k then 1 else 0)
  {
    if s != [] {
      CountKeyAppend(s[1..], x, key, k);
      assert (s + [x])[1..] == s[1..] + [x];
    }
  }

  lemma {:induction false} CountKeyUpdate<T, K>(s: seq<T>, i: nat, x: T, key: T -> K, k: K)
    requires i < |s|
    ensures CountKey(s[i := x], key, k) + (if key(s[i]) == k then 1 else 0)
      == CountKey(s, key, k) + (if key(x) == k then 1 else 0)
  {
    if i == 0 {
      assert s[i := x][1..] == s[1..];
    } else {
      assert s[i := x][1..] == s[1..][i - 1 := x];
      CountKeyUpdate(s[1..], i - 1, x, key, k);
    }
  }

  /** Number of elements whose key lies in `ks`. */
  function CountKeyIn<T, K(==)>(s: seq<T>, key: T -> K, ks: set<K>): (n: nat)
    ensures n <= |s|
  {
    if s == [] then 0 else (if key(s[0]) in ks then 1 else 0) + CountKeyIn(s[1..], key, ks)
  }

  /** Sum of the per-key counts for the keys listed in `ks`. */
  function SumCounts<T, K(==)>(s: seq<T>, key: T -> K, ks: seq<K>): nat
  {
    if ks == [] then 0 else CountKey(s, key, ks[0]) + SumCounts(s, key, ks[1..])
  }

  /** The per-key sum over a list of keys: the first key's count plus the rest's sum. */
  lemma SumCountsCons<T, K>(s: seq<T>, key: T -> K, k: K, ks: seq<K>)
    ensures SumCounts(s, key, [k] + ks) == CountKey(s, key, k) + SumCounts(s, key, ks)
  {
    assert ([k] + ks)[1..] == ks;
  }

  lemma SumCountsPair<T, K>(s: seq<T>, key: T -> K, a: K, b: K)
    ensures SumCounts(s, key, [a, b]) == CountKey(s, key, a) + CountKey(s, key, b)
  {
    SumCountsCons(s, key, a, [b]);
    SumCountsCons(s, key, b, []);
  }

  predicate Distinct<K(==)>(ks: seq<K>) {
    forall i, j :: 0 <= i < j < |ks| ==> ks[i] != ks[j]
  }

  /** Counting a fresh key separately and then the rest is counting the union. */
  lemma {:induction false} CountKeySplit<T, K>(s: seq<T>, key: T -> K, k: K, ks: set<K>)
    requires k !in ks
    ensures CountKey(s, key, k) + CountKeyIn(s, key, ks) == CountKeyIn(s, key, ks + {k})
  {
    if s != [] {
      CountKeySplit(s[1..], key, k, ks);
    }
  }

  /**
    Counting by distinct keys never counts an element twice: the per-key counts
    add up to at most the length of the sequence.
   */
  lemma {:induction false} SumCountsBound<T, K>(s: seq<T>, key: T -> K, ks: seq<K>)
    requires Distinct(ks)
    ensures SumCounts(s, key, ks) == CountKeyIn(s, key, set k | k in ks)
    ensures SumCounts(s, key, ks) <= |s|
  {
    if ks == [] {
      assert (set k | k in ks) == {};
      EmptyKeySet(s, key);
    } else {
      var rest := ks[1..];
      assert Distinct(rest) by {
        forall i, j | 0 <= i < j < |rest| ensures rest[i] != rest[j] {
          assert rest[i] == ks[i + 1] && rest[j] == ks[j + 1];
        }
      }
      SumCountsBound(s, key, rest);
      assert ks[0] !in rest by {
        forall i | 0 <= i < |rest| ensures rest[i] != ks[0] {
          assert rest[i] == ks[i + 1];
        }
      }
      CountKeySplit(s, key, ks[0], set k | k in rest);
      assert (set k | k in rest) + {ks[0]} == set k | k in ks by {
        assert ks == [ks[0]] + rest;
      }
    }
  }

  lemma {:induction false} EmptyKeySet<T, K>(s: seq<T>, key: T -> K)
    ensures CountKeyIn(s, key, {}) == 0
  {
    if s != [] {
      EmptyKeySet(s[1..], key);
    }
  }
}

=== FILE: ledger.dfy ===
/**
  The persisted aggregate of `GameDatabase`: the play records with their counters under
  one storage key, and the admin configuration under another, with the operations that
  create and change them. A failed storage write is the `writeOk` parameter; the clock,
  the generated id and the browser's user-agent string are parameters too.
 */
module Ledger {
  import opened Optional
  import opened Text
  import opened Utility
  import opened Rewards
  import Counting

  /** One stored play, an element of `gameResults`. */
  datatype GameResult = GameResult(
    id: string,
    name: string,
    whatsapp: string,
    game: string,
    reward: string,
    code: string,
    claimed: bool,
    claimedAt: Option<nat>,
    timestamp: nat,
    ipAddress: string,
    userAgent: string)

  datatype Settings = Settings(totalPlays: nat, totalWins: nat, lastUpdated: nat)

  /** The blob under the data key. */
  datatype GameData = GameData(gameResults: seq<GameResult>, settings: Settings)

  datatype Credentials = Credentials(email: string, password: string)

  datatype GameConfig = GameConfig(enabled: bool, rewards: seq<Reward>)

  /** The blob under the admin key; either part may be missing from what is stored. */
  datatype AdminData = AdminData(
    credentials: Option<Credentials>,
    gameSettings: Option<map<string, GameConfig>>)

  /** Both storage keys; `None` is a key that holds nothing. */
  datatype Store = Store(data: Option<GameData>, admin: Option<AdminData>)

  /** A boolean-returning mutation: what it returned and the storage afterwards. */
  datatype Outcome = Outcome(ok: bool, store: Store)

  const DefaultEmail: string := "admin@example.com"
  const DefaultPassword: string := "adminPass"
  const SpinGameKey: string := "spinGame"
  const ScratchGameKey: string := "scratchGame"

  /** `getClientIP()` always answers this placeholder. */
  const ClientIp: string := "Client-Side"

  /** Stored user-agent strings are cut to this many characters. */
  const UserAgentLimit: nat := 100

  predicate IsWin(r: GameResult) {
    r.reward != NoWin
  }

  /** The counters agree with the records they summarise. */
  predicate Consistent(d: GameData) {
    && d.settings.totalPlays == |d.gameResults|
    && d.settings.totalWins == Counting.CountWhere(d.gameResults, IsWin)
  }

  // ------------------------------------------------------------ seeding

  function EmptyData(now: nat): GameData {
    GameData([], Settings(0, 0, now))
  }

  /** The spin table seeded into storage. */
  function SeededSpinRewards(): seq<Reward> {
    [ Reward("10% Off", 0.25), Reward("20% Off", 0.15), Reward("Free Avil Milk", 0.10),
      Reward("5% Off", 0.20), Reward("No Win", 0.25), Reward("15% Off", 0.05) ]
  }

  /** The scratch table seeded into storage. */
  function SeededScratchRewards(): seq<Reward> {
    [ Reward("10% Off", 0.20), Reward("20% Off", 0.10), Reward("Free Avil Milk", 0.15),
      Reward("5% Off", 0.25), Reward("No Win", 0.25), Reward("15% Off", 0.05) ]
  }

  function DefaultAdmin(): AdminData {
    AdminData(
      Some(Credentials(DefaultEmail, DefaultPassword)),
      Some(map[
        SpinGameKey := GameConfig(true, SeededSpinRewards()),
        ScratchGameKey := GameConfig(true, SeededScratchRewards())]))
  }

  /** The tables seeded into storage are the game script's own defaults. */
  lemma SeededTablesAreDefaults()
    ensures SeededSpinRewards() == DefaultSpinRewards()
    ensures SeededScratchRewards() == DefaultScratchRewards()
  {
  }

  /** `initializeStorage()`: each key is written only when it holds nothing. */
  function InitializeStorage(st: Store, now: nat): (r: Store)
    ensures r.data.Some? && r.admin.Some?
    ensures st.data.Some? ==> r.data == st.data
    ensures st.admin.Some? ==> r.admin == st.admin
    ensures st.data.None? ==> r.data.value.gameResults == [] && Consistent(r.data.value)
    ensures st.admin.None? ==> r.admin == Some(DefaultAdmin())
  {
    Store(
      if st.data.None? then Some(EmptyData(now)) else st.data,
      if st.admin.None? then Some(DefaultAdmin()) else st.admin)
  }

  /** Initialising twice is initialising once: nothing present is ever overwritten. */
  lemma InitializeIdempotent(st: Store, now: nat, later: nat)
    ensures InitializeStorage(InitializeStorage(st, now), later) == InitializeStorage(st, now)
  {
  }

  /**
    `clearAllData()`: remove the data key, then initialise again. When the write of the
    fresh data blob fails, `initializeStorage` throws after the removal: the records are
    gone, the admin key is untouched and the call answers false.
   */
  function ClearAllData(st: Store, now: nat, writeOk: bool): (o: Outcome)
    ensures o.ok <==> writeOk
    ensures o.store.admin.Some? <==> o.ok || st.admin.Some?
    ensures st.admin.Some? ==> o.store.admin == st.admin
    ensures o.ok ==> o.store.data == Some(EmptyData(now))
    ensures !o.ok ==> o.store == Store(None, st.admin)
  {
    var removed := Store(None, st.admin);
    if writeOk then Outcome(true, InitializeStorage(removed, now)) else Outcome(false, removed)
  }

  // ------------------------------------------------------------- saving

  /** The object handed to `saveGameResult`; a field may be missing. */
  datatype Submission = Submission(
    name: Option<string>,
    whatsapp: Option<string>,
    game: Option<string>,
    reward: Option<string>,
    code: Option<string>)

  /** Every required field is present and non-empty. */
  predicate Complete(sub: Submission) {
    Truthy(sub.name) && Truthy(sub.whatsapp) && Truthy(sub.game) && Truthy(sub.reward) && Truthy(sub.code)
  }

  /** The record built from a complete submission. */
  function NewRecord(sub: Submission, id: string, now: nat, userAgent: string): GameResult
    requires Complete(sub)
  {
    GameResult(
      id,
      SanitizeInput(Str(sub.name.value)),
      SanitizeInput(Str(sub.whatsapp.value)),
      sub.game.value,
      sub.reward.value,
      sub.code.value,
      false,
      None,
      now,
      ClientIp,
      FirstN(userAgent, UserAgentLimit))
  }

  /**
    `saveGameResult(gameResult)`: with the data blob present and every required field
    truthy, append one record, count the play (and the win unless the reward is
    "No Win") and write the blob back. Any failure leaves storage as it was.
   */
  function SaveGameResult(st: Store, sub: Submission, id: string, now: nat, userAgent: string, writeOk: bool): (o: Outcome)
    ensures o.ok <==> st.data.Some? && Complete(sub) && writeOk
    ensures !o.ok ==> o.store == st
    ensures o.ok ==> o.store.admin == st.admin && o.store.data.Some?
    ensures o.ok ==>
      var before, after := st.data.value, o.store.data.value;
      && after.gameResults == before.gameResults + [NewRecord(sub, id, now, userAgent)]
      && after.settings.totalPlays == before.settings.totalPlays + 1
      && after.settings.totalWins == before.settings.totalWins + (if sub.reward.value != NoWin then 1 else 0)
      && after.settings.lastUpdated == now
  {
    if st.data.None? || !Complete(sub) || !writeOk then Outcome(false, st)
    else
      var d := st.data.value;
      var rec := NewRecord(sub, id, now, userAgent);
      var wins := if sub.reward.value != NoWin then d.settings.totalWins + 1 else d.settings.totalWins;
      var d' := GameData(d.gameResults + [rec], Settings(d.settings.totalPlays + 1, wins, now));
      Outcome(true, Store(Some(d'), st.admin))
  }

  /**
    A saved record is unclaimed, keeps the code, game and reward, and holds the name and
    number with `'` escaped and the ends trimmed: unescaping gives back the trimmed input.
   */
  lemma NewRecordShape(sub: Submission, id: string, now: nat, userAgent: string)
    requires Complete(sub)
    ensures
      var rec := NewRecord(sub, id, now, userAgent);
      && !rec.claimed && rec.claimedAt.None?
      && rec.code == sub.code.value && rec.game == sub.game.value && rec.reward == sub.reward.value
      && rec.timestamp == now && rec.ipAddress == ClientIp
      && '\'' !in rec.name && '\'' !in rec.whatsapp
      && Unescape(WrittenEntities, rec.name) == Trim(sub.name.value)
      && Unescape(WrittenEntities, rec.whatsapp) == Trim(sub.whatsapp.value)
      && |rec.userAgent| <= UserAgentLimit && rec.userAgent <= userAgent
  {
    SanitizeInputRoundTrip(sub.name.value);
    SanitizeInputRoundTrip(sub.whatsapp.value);
  }

  /**
    A double quote in a submitted name reaches the stored record, since the sanitiser
    leaves `"` alone.
   */
  lemma StoredNameKeepsQuote(sub: Submission, id: string, now: nat, userAgent: string)
    requires Complete(sub) && '"' in sub.name.value
    ensures '"' in NewRecord(sub, id, now, userAgent).name
  {
    SanitizeInputKeepsMarkup(sub.name.value, '"');
  }

  /** Saving keeps the counters in step with the records. */
  lemma SaveKeepsConsistent(st: Store, sub: Submission, id: string, now: nat, userAgent: string, writeOk: bool)
    requires st.data.Some? && Consistent(st.data.value)
    ensures
      var o := SaveGameResult(st, sub, id, now, userAgent, writeOk);
      o.store.data.Some? && Consistent(o.store.data.value)
  {
    var o := SaveGameResult(st, sub, id, now, userAgent, writeOk);
    if o.ok {
      Counting.CountAppend(st.data.value.gameResults, NewRecord(sub, id, now, userAgent), IsWin);
    }
  }

  // ------------------------------------------------------------ claiming

  /** `findIndex(result => result.id === id)`, with `None` for -1. */
  function FindIndex(rs: seq<GameResult>, id: string): (i: Option<nat>)
    ensures i.Some? ==> i.value < |rs| && rs[i.value].id == id
    ensures i.Some? ==> forall j :: 0 <= j < i.value ==> rs[j].id != id
    ensures i.None? ==> forall j :: 0 <= j < |rs| ==> rs[j].id != id
  {
    if rs == [] then None
    else if rs[0].id == id then Some(0)
    else match FindIndex(rs[1..], id)
      case None => None
      case Some(j) => Some(j + 1)
  }

  /** The record after its claim status is set at time `now`. */
  function Claim(r: GameResult, claimed: bool, now: nat): GameResult {
    r.(claimed := claimed, claimedAt := if claimed then Some(now) else None)
  }

  /**
    `updateClaimedStatus(resultId, claimed)`: the first record with the id gets the
    status, and the claim time `now` exactly when claimed; nothing else but `lastUpdated` moves.
   */
  function UpdateClaimedStatus(st: Store, resultId: string, claimed: bool, now: nat, writeOk: bool): (o: Outcome)
    ensures o.ok <==> (st.data.Some? && writeOk &&
      exists i :: 0 <= i < |st.data.value.gameResults| && st.data.value.gameResults[i].id == resultId)
    ensures !o.ok ==> o.store == st
    ensures o.ok ==> o.store.data.Some? && o.store.admin == st.admin
    ensures o.ok ==>
      var before, after := st.data.value, o.store.data.value;
      var i := FindIndex(before.gameResults, resultId).value;
      && |after.gameResults| == |before.gameResults|
      && after.gameResults[i].claimed == claimed
      && after.gameResults[i].claimedAt == (if claimed then Some(now) else None)
      && after.gameResults[i] == before.gameResults[i].(claimed := after.gameResults[i].claimed, claimedAt := after.gameResults[i].claimedAt)
      && (forall j :: 0 <= j < |after.gameResults| && j != i ==> after.gameResults[j] == before.gameResults[j])
      && after.settings == before.settings.(lastUpdated := now)
  {
    if st.data.None? then Outcome(false, st)
    else
      var d := st.data.value;
      match FindIndex(d.gameResults, resultId)
      case None => Outcome(false, st)
      case Some(i) =>
        if !writeOk then Outcome(false, st)
        else
          var rs := d.gameResults[i := Claim(d.gameResults[i], claimed, now)];
          Outcome(true, Store(Some(GameData(rs, d.settings.(lastUpdated := now))), st.admin))
  }

  /** Claiming never changes a reward, so the counters stay in step. */
  lemma UpdateKeepsConsistent(st: Store, resultId: string, claimed: bool, now: nat, writeOk: bool)
    requires st.data.Some? && Consistent(st.data.value)
    ensures
      var o := UpdateClaimedStatus(st, resultId, claimed, now, writeOk);
      o.store.data.Some? && Consistent(o.store.data.value)
  {
    var o := UpdateClaimedStatus(st, resultId, claimed, now, writeOk);
    if o.ok {
      var a, b := st.data.value.gameResults, o.store.data.value.gameResults;
      Counting.CountPointwise(b, a, IsWin, IsWin);
    }
  }

  // -------------------------------------------------------------- admin

  /** `validateAdminCredentials(email, password)`: both must equal the stored ones exactly. */
  function ValidateAdminCredentials(st: Store, email: string, password: string): (ok: bool)
    ensures ok ==> st.admin.Some? && st.admin.value.credentials.Some?
    ensures ok <==> st.admin.Some? && st.admin.value.credentials == Some(Credentials(email, password))
  {
    match st.admin
    case None => false
    case Some(a) =>
      match a.credentials
      case None => false
      case Some(c) => c.email == email && c.password == password
  }

  /** On a fresh store only the seeded pair is accepted, and clearing the data keeps it so. */
  lemma SeededCredentialsOnly(st: Store, now: nat, later: nat, email: string, password: string, writeOk: bool)
    requires st.admin.None?
    ensures ValidateAdminCredentials(InitializeStorage(st, now), email, password)
      <==> email == DefaultEmail && password == DefaultPassword
    ensures ValidateAdminCredentials(ClearAllData(InitializeStorage(st, now), later, writeOk).store, email, password)
      <==> email == DefaultEmail && password == DefaultPassword
  {
  }

  /** `getGameSettings(gameType)`: the stored configuration for that key, if any. */
  function GetGameSettings(st: Store, gameType: string): (cfg: Option<GameConfig>)
    ensures cfg.Some? <==>
      st.admin.Some? && st.admin.value.gameSettings.Some? && gameType in st.admin.value.gameSettings.value
    ensures cfg.Some? ==> cfg.value == st.admin.value.gameSettings.value[gameType]
  {
    match st.admin
    case None => None
    case Some(a) =>
      match a.gameSettings
      case None => None
      case Some(m) => if gameType in m then Some(m[gameType]) else None
  }

  /** A fresh store answers the two game keys with the default tables and nothing else. */
  lemma SeededSettings(st: Store, now: nat, gameType: string)
    requires st.admin.None?
    ensures GetGameSettings(InitializeStorage(st, now), SpinGameKey) == Some(GameConfig(true, DefaultSpinRewards()))
    ensures GetGameSettings(InitializeStorage(st, now), ScratchGameKey) == Some(GameConfig(true, DefaultScratchRewards()))
    ensures GetGameSettings(InitializeStorage(st, now), gameType).Some? <==>
      gameType == SpinGameKey || gameType == ScratchGameKey
  {
    SeededTablesAreDefaults();
  }
}

=== FILE: optional.dfy ===
/** A value that may be absent: the model's stand-in for JavaScript's `undefined` and `null`. */
module Optional {

  datatype Option<+T> = None | Some(value: T) {

    /** The wrapped value, or `default` when absent (JavaScript's `x || default` on objects). */
    function GetOr(default: T): T {
      match this
      case Some(v) => v
      case None => default
    }
  }
}

=== FILE: query.dfy ===
/**
  Reading the ledger: `getGameResults` (filters, then newest first) and `isCodeUnique`.
 */
module LedgerQuery {
  import opened Optional
  import opened Text
  import opened Utility
  import opened Ledger
  import Counting

  /** The optional `filters` object; a filter takes part only when JavaScript finds it set. */
  datatype Filters = Filters(
    game: Option<string>,
    claimed: Option<bool>,
    dateFrom: Option<int>,
    dateTo: Option<int>,
    reward: Option<string>)

  const NoFilters: Filters := Filters(None, None, None, None, None)

  /** A number filter is set when present and not 0. */
  predicate NumberSet(v: Option<int>) {
    v.Some? && v.value != 0
  }

  predicate GameOk(f: Filters, r: GameResult) {
    Truthy(f.game) ==> r.game == f.game.value
  }

  predicate ClaimedOk(f: Filters, r: GameResult) {
    f.claimed.Some? ==> r.claimed == f.claimed.value
  }

  predicate FromOk(f: Filters, r: GameResult) {
    NumberSet(f.dateFrom) ==> r.timestamp >= f.dateFrom.value
  }

  predicate ToOk(f: Filters, r: GameResult) {
    NumberSet(f.dateTo) ==> r.timestamp <= f.dateTo.value
  }

  /** Case-insensitive substring test of the reward text. */
  predicate RewardOk(f: Filters, r: GameResult) {
    Truthy(f.reward) ==> Includes(LowerCase(r.reward), LowerCase(f.reward.value))
  }

  /** A record passes every filter that is set. */
  predicate Matches(f: Filters, r: GameResult) {
    GameOk(f, r) && ClaimedOk(f, r) && FromOk(f, r) && ToOk(f, r) && RewardOk(f, r)
  }

  /** The five filters, applied one after another as the source does. */
  function ApplyFilters(rs: seq<GameResult>, f: Filters): seq<GameResult> {
    var r1 := if Truthy(f.game) then Counting.Filter(rs, r => GameOk(f, r)) else rs;
    var r2 := if f.claimed.Some? then Counting.Filter(r1, r => ClaimedOk(f, r)) else r1;
    var r3 := if NumberSet(f.dateFrom) then Counting.Filter(r2, r => FromOk(f, r)) else r2;
    var r4 := if NumberSet(f.dateTo) then Counting.Filter(r3, r => ToOk(f, r)) else r3;
    if Truthy(f.reward) then Counting.Filter(r4, r => RewardOk(f, r)) else r4
  }

  /** Applying a filter only when set is filtering with a predicate that holds when unset. */
  lemma StepIsFilter(rs: seq<GameResult>, set_: bool, p: GameResult -> bool)
    requires forall r :: !set_ ==> p(r)
    ensures (if set_ then Counting.Filter(rs, p) else rs) == Counting.Filter(rs, p)
  {
    if !set_ {
      Counting.FilterAll(rs, p);
    }
  }

  /** The successive filters keep exactly the records that pass all of them, in order. */
  lemma ApplyFiltersIsConjunction(rs: seq<GameResult>, f: Filters)
    ensures ApplyFilters(rs, f) == Counting.Filter(rs, r => Matches(f, r))
  {
    var p1: GameResult -> bool := r => GameOk(f, r);
    var p2: GameResult -> bool := r => ClaimedOk(f, r);
    var p3: GameResult -> bool := r => FromOk(f, r);
    var p4: GameResult -> bool := r => ToOk(f, r);
    var p5: GameResult -> bool := r => RewardOk(f, r);
    var q2: GameResult -> bool := r => GameOk(f, r) && ClaimedOk(f, r);
    var q3: GameResult -> bool := r => q2(r) && FromOk(f, r);
    var q4: GameResult -> bool := r => q3(r) && ToOk(f, r);
    var q5: GameResult -> bool := r => q4(r) && RewardOk(f, r);
    StepIsFilter(rs, Truthy(f.game), p1);
    var r1 := Counting.Filter(rs, p1);
    StepIsFilter(r1, f.claimed.Some?, p2);
    Counting.FilterTwice(rs, p1, p2, q2);
    var r2 := Counting.Filter(rs, q2);
    StepIsFilter(r2, NumberSet(f.dateFrom), p3);
    Counting.FilterTwice(rs, q2, p3, q3);
    var r3 := Counting.Filter(rs, q3);
    StepIsFilter(r3, NumberSet(f.dateTo), p4);
    Counting.FilterTwice(rs, q3, p4, q4);
    var r4 := Counting.Filter(rs, q4);
    StepIsFilter(r4, Truthy(f.reward), p5);
    Counting.FilterTwice(rs, q4, p5, q5);
    Counting.FilterExt(rs, q5, r => Matches(f, r));
  }

  // ------------------------------------------------------------- sorting

  /** Each record is at least as new as the one after it. */
  predicate NewestFirst(rs: seq<GameResult>) {
    forall i :: 0 <= i < |rs| - 1 ==> rs[i].timestamp >= rs[i + 1].timestamp
  }

  /** Newest first for neighbours means newest first for every pair. */
  lemma {:induction false} NewestFirstPairwise(rs: seq<GameResult>, i: nat, j: nat)
    requires NewestFirst(rs) && i <= j < |rs|
    ensures rs[i].timestamp >= rs[j].timestamp
    decreases j - i
  {
    if i < j {
      NewestFirstPairwise(rs, i + 1, j);
    }
  }

  /** The records with timestamp `t`, in their order. */
  function WithTimestamp(rs: seq<GameResult>, t: nat): seq<GameResult> {
    if rs == [] then []
    else (if rs[0].timestamp == t then [rs[0]] else []) + WithTimestamp(rs[1..], t)
  }

  /** Place `x` before the first record that is not newer than it. */
  function Insert(x: GameResult, rs: seq<GameResult>): (r: seq<GameResult>)
    ensures |r| == |rs| + 1
    ensures multiset(r) == multiset(rs) + multiset{x}
    ensures r[0] == x || (rs != [] && r[0] == rs[0])
  {
    if rs == [] || rs[0].timestamp <= x.timestamp then
      [x] + rs
    else
      assert rs == [rs[0]] + rs[1..];
      [rs[0]] + Insert(x, rs[1..])
  }

  /** Inserting into a newest-first sequence keeps it newest first. */
  lemma {:induction false} InsertNewestFirst(x: GameResult, rs: seq<GameResult>)
    requires NewestFirst(rs)
    ensures NewestFirst(Insert(x, rs))
  {
    if rs != [] && rs[0].timestamp > x.timestamp {
      var rest := Insert(x, rs[1..]);
      InsertNewestFirst(x, rs[1..]);
      var r := [rs[0]] + rest;
      assert r[1] == rest[0];
      forall i | 0 <= i < |r| - 1
        ensures r[i].timestamp >= r[i + 1].timestamp
      {
        if i > 0 {
          assert r[i] == rest[i - 1] && r[i + 1] == rest[i];
        }
      }
    }
  }

  /**
    `results.sort((a, b) => b.timestamp - a.timestamp)`: a stable sort, newest first.
    Records with equal timestamps keep their stored order.
   */
  function SortNewestFirst(rs: seq<GameResult>): (r: seq<GameResult>)
    ensures multiset(r) == multiset(rs)
    ensures NewestFirst(r)
  {
    if rs == [] then [] else
      assert rs == [rs[0]] + rs[1..];
      InsertNewestFirst(rs[0], SortNewestFirst(rs[1..]));
      Insert(rs[0], SortNewestFirst(rs[1..]))
  }

  lemma {:induction false} WithTimestampInsert(x: GameResult, rs: seq<GameResult>, t: nat)
    requires NewestFirst(rs)
    ensures WithTimestamp(Insert(x, rs), t) == (if x.timestamp == t then [x] else []) + WithTimestamp(rs, t)
  {
    if rs == [] || rs[0].timestamp <= x.timestamp {
      assert ([x] + rs)[1..] == rs;
    } else {
      assert NewestFirst(rs[1..]);
      WithTimestampInsert(x, rs[1..], t);
      var rest := Insert(x, rs[1..]);
      assert ([rs[0]] + rest)[1..] == rest;
    }
  }

  /** Sorting is stable: the records of each timestamp keep their relative order. */
  lemma {:induction false} SortStable(rs: seq<GameResult>, t: nat)
    ensures WithTimestamp(SortNewestFirst(rs), t) == WithTimestamp(rs, t)
  {
    if rs != [] {
      SortStable(rs[1..], t);
      WithTimestampInsert(rs[0], SortNewestFirst(rs[1..]), t);
    }
  }

  /** `getGameResults(filters)`: no data gives `[]`. */
  function GetGameResults(st: Store, f: Filters): (r: seq<GameResult>)
    ensures st.data.None? ==> r == []
    ensures NewestFirst(r)
    ensures st.data.Some? ==> multiset(r) == multiset(Counting.Filter(st.data.value.gameResults, x => Matches(f, x)))
  {
    if st.data.None? then []
    else
      ApplyFiltersIsConjunction(st.data.value.gameResults, f);
      SortNewestFirst(ApplyFilters(st.data.value.gameResults, f))
  }

  /** A record is returned exactly when it is stored and passes every set filter. */
  lemma GetGameResultsMembers(st: Store, f: Filters, x: GameResult)
    requires st.data.Some?
    ensures x in GetGameResults(st, f) <==> x in st.data.value.gameResults && Matches(f, x)
  {
    var rs := st.data.value.gameResults;
    var kept := Counting.Filter(rs, r => Matches(f, r));
    var out := GetGameResults(st, f);
    assert x in out <==> x in multiset(out);
    assert x in kept <==> x in multiset(kept);
    if x in rs && Matches(f, x) {
      var i :| 0 <= i < |rs| && rs[i] == x;
    }
    if x in kept {
      assert x in multiset(rs);
    }
  }

  /** Without filters every stored record comes back, newest first. */
  lemma UnfilteredIsPermutation(st: Store)
    requires st.data.Some?
    ensures multiset(GetGameResults(st, NoFilters)) == multiset(st.data.value.gameResults)
  {
    var rs := st.data.value.gameResults;
    assert forall r :: Matches(NoFilters, r);
    Counting.FilterAll(rs, x => Matches(NoFilters, x));
  }

  // ------------------------------------------------------- code uniqueness

  /** The unfiltered listing holds exactly the stored records. */
  lemma UnfilteredSameMembers(st: Store)
    requires st.data.Some?
    ensures forall x :: x in GetGameResults(st, NoFilters) <==> x in st.data.value.gameResults
  {
    UnfilteredIsPermutation(st);
    var results := GetGameResults(st, NoFilters);
    var rs := st.data.value.gameResults;
    forall x
      ensures x in results <==> x in rs
    {
      assert x in results <==> x in multiset(results);
      assert x in rs <==> x in multiset(rs);
    }
  }

  /** `isCodeUnique(code)`: no returned record carries the code. */
  function IsCodeUnique(st: Store, code: string): (unique: bool)
    ensures st.data.Some? ==>
      (unique <==> forall x :: x in st.data.value.gameResults ==> x.code != code)
    ensures st.data.None? ==> unique
  {
    var results := GetGameResults(st, NoFilters);
    if st.data.Some? then
      UnfilteredSameMembers(st);
      forall x :: x in results ==> x.code != code
    else
      results == []
  }

  /** After a successful save, the saved code is no longer unique. */
  lemma SavedCodeTaken(st: Store, sub: Submission, id: string, now: nat, userAgent: string, writeOk: bool)
    requires SaveGameResult(st, sub, id, now, userAgent, writeOk).ok
    ensures !IsCodeUnique(SaveGameResult(st, sub, id, now, userAgent, writeOk).store, sub.code.value)
  {
    var after := SaveGameResult(st, sub, id, now, userAgent, writeOk).store.data.value.gameResults;
    assert after[|after| - 1].code == sub.code.value;
  }

  /** Right after clearing, whether or not it succeeded, nothing is listed and every code is unique. */
  lemma ClearedIsEmpty(st: Store, now: nat, f: Filters, code: string, writeOk: bool)
    ensures GetGameResults(ClearAllData(st, now, writeOk).store, f) == []
    ensures IsCodeUnique(ClearAllData(st, now, writeOk).store, code)
  {
    var r := GetGameResults(ClearAllData(st, now, writeOk).store, f);
    assert |multiset(r)| == 0;
  }
}

=== FILE: report.dfy ===
/**
  The admin views of the ledger: `getStatistics` and `exportToCSV`.
 */
module LedgerReport {
  import opened Optional
  import opened Text
  import opened Rewards
  import opened Ledger
  import opened LedgerQuery
  import Counting

  // ---------------------------------------------------------- statistics

  /** One week in milliseconds: `7 * 24 * 60 * 60 * 1000`. */
  const WeekMillis: nat := 604800000

  /** The object `getStatistics` returns, with the rates as exact percentages. */
  datatype Statistics = Statistics(
    totalPlays: nat,
    totalWins: nat,
    totalClaimed: nat,
    winRate: real,
    claimRate: real,
    spinPlays: nat,
    scratchPlays: nat,
    recentPlays: nat,
    lastUpdated: nat)

  predicate IsClaimed(r: GameResult) {
    r.claimed
  }

  /** Played at or after `since`. */
  predicate IsSince(r: GameResult, since: int) {
    r.timestamp >= since
  }

  function GameOf(r: GameResult): string {
    r.game
  }

  /** The filter `r => r.timestamp >= since`. */
  function PlayedSince(since: int): GameResult -> bool {
    r => IsSince(r, since)
  }

  /** `part / whole * 100`, or 0 when `whole` is 0. */
  function Percent(part: nat, whole: nat): (p: real)
    ensures whole == 0 ==> p == 0.0
    ensures p >= 0.0
    ensures part <= whole ==> p <= 100.0
    ensures whole > 0 && part == whole ==> p == 100.0
    ensures whole > 0 ==> p * whole as real == 100.0 * part as real
  {
    if whole == 0 then 0.0
    else
      var q := part as real / whole as real;
      assert q * whole as real == part as real;
      assert q * 100.0 * whole as real == 100.0 * (q * whole as real);
      q * 100.0
  }

  /** `getStatistics()` at clock `now`: `None` when there is no data blob. */
  function GetStatistics(st: Store, now: nat): (r: Option<Statistics>)
    ensures r.None? <==> st.data.None?
    ensures r.Some? ==>
      var s, rs := r.value, st.data.value.gameResults;
      && s.totalPlays == |rs|
      && s.totalWins <= s.totalPlays && s.totalClaimed <= s.totalPlays
      && s.spinPlays + s.scratchPlays <= s.totalPlays
      && s.recentPlays <= s.totalPlays
      && (s.totalPlays == 0 ==> s.winRate == 0.0)
      && (s.totalWins == 0 ==> s.claimRate == 0.0)
      && 0.0 <= s.winRate <= 100.0 && s.claimRate >= 0.0
      && s.lastUpdated == st.data.value.settings.lastUpdated
  ensures r.Some? ==>
      var s, rs := r.value, st.data.value.gameResults;
      && s.totalWins == Counting.CountWhere(rs, IsWin)
      && s.totalClaimed == Counting.CountWhere(rs, IsClaimed)
      && s.spinPlays == Counting.CountKey(rs, GameOf, SpinGame)
      && s.scratchPlays == Counting.CountKey(rs, GameOf, ScratchGame)
      && s.recentPlays == Counting.CountWhere(rs, PlayedSince(now - WeekMillis))
      && s.winRate == Percent(s.totalWins, s.totalPlays)
      && s.claimRate == Percent(s.totalClaimed, s.totalWins)
  {
    if st.data.None? then None
    else
      var rs := st.data.value.gameResults;
      var plays := |rs|;
      var wins := Counting.CountWhere(rs, IsWin);
      var claimed := Counting.CountWhere(rs, IsClaimed);
      var weekAgo: int := now - WeekMillis;
      Counting.SumCountsBound(rs, GameOf, [SpinGame, ScratchGame]);
      Some(Statistics(
        plays, wins, claimed,
        Percent(wins, plays), Percent(claimed, wins),
        Counting.CountKey(rs, GameOf, SpinGame),
        Counting.CountKey(rs, GameOf, ScratchGame),
        Counting.CountWhere(rs, PlayedSince(weekAgo)),
        st.data.value.settings.lastUpdated))
  }

  /** For a blob whose counters are in step, the statistics repeat the stored counters. */
  lemma StatisticsMatchCounters(st: Store, now: nat)
    requires st.data.Some? && Consistent(st.data.value)
    ensures GetStatistics(st, now).value.totalPlays == st.data.value.settings.totalPlays
    ensures GetStatistics(st, now).value.totalWins == st.data.value.settings.totalWins
  {
  }

  /** Every play counts as spin, scratch or neither, never both. */
  lemma GamePlaysPartition(st: Store, now: nat)
    requires st.data.Some?
    ensures
      var s := GetStatistics(st, now).value;
      s.spinPlays + s.scratchPlays ==
        Counting.CountKeyIn(st.data.value.gameResults, GameOf, {SpinGame, ScratchGame})
  {
    var rs, ks := st.data.value.gameResults, [SpinGame, ScratchGame];
    var s := GetStatistics(st, now).value;
    assert s.spinPlays == Counting.CountKey(rs, GameOf, SpinGame);
    assert s.scratchPlays == Counting.CountKey(rs, GameOf, ScratchGame);
    Counting.SumCountsPair(rs, GameOf, SpinGame, ScratchGame);
    Counting.SumCountsBound(rs, GameOf, ks);
    assert (set k | k in ks) == {SpinGame, ScratchGame} by {
      forall k
        ensures k in ks <==> k == SpinGame || k == ScratchGame
      {
      }
    }
  }

  /**
    A successful save adds one play; one win exactly when the reward is not "No Win"; one
    spin or scratch play by its game; and one recent play when it falls inside the week
    before the statistics are taken.
   */
  lemma StatisticsAfterSave(st: Store, sub: Submission, id: string, now: nat, userAgent: string, later: nat)
    requires SaveGameResult(st, sub, id, now, userAgent, true).ok
    ensures
      var before := GetStatistics(st, later).value;
      var after := GetStatistics(SaveGameResult(st, sub, id, now, userAgent, true).store, later).value;
      && after.totalPlays == before.totalPlays + 1
      && after.totalWins == before.totalWins + (if sub.reward.value != NoWin then 1 else 0)
      && after.totalClaimed == before.totalClaimed
      && after.spinPlays == before.spinPlays + (if sub.game.value == SpinGame then 1 else 0)
      && after.scratchPlays == before.scratchPlays + (if sub.game.value == ScratchGame then 1 else 0)
      && after.recentPlays == before.recentPlays + (if now >= later - WeekMillis then 1 else 0)
  {
    var rs := st.data.value.gameResults;
    var rec := NewRecord(sub, id, now, userAgent);
    NewRecordShape(sub, id, now, userAgent);
    Counting.CountAppend(rs, rec, IsWin);
    Counting.CountAppend(rs, rec, IsClaimed);
    Counting.CountAppend(rs, rec, PlayedSince(later - WeekMillis));
    Counting.CountKeyAppend(rs, rec, GameOf, SpinGame);
    Counting.CountKeyAppend(rs, rec, GameOf, ScratchGame);
  }

  /**
    A successful claim update moves `totalClaimed` by the change in that one record's
    status (claiming an unclaimed record adds one) and leaves every other figure alone.
   */
  lemma StatisticsAfterClaim(st: Store, resultId: string, claimed: bool, now: nat, later: nat)
    requires UpdateClaimedStatus(st, resultId, claimed, now, true).ok
    ensures
      var rs := st.data.value.gameResults;
      var was := rs[FindIndex(rs, resultId).value].claimed;
      var before := GetStatistics(st, later).value;
      var after := GetStatistics(UpdateClaimedStatus(st, resultId, claimed, now, true).store, later).value;
      && after.totalClaimed + (if was then 1 else 0) == before.totalClaimed + (if claimed then 1 else 0)
      && after.totalPlays == before.totalPlays && after.totalWins == before.totalWins
      && after.spinPlays == before.spinPlays && after.scratchPlays == before.scratchPlays
      && after.recentPlays == before.recentPlays
  {
    var rs := st.data.value.gameResults;
    var i := FindIndex(rs, resultId).value;
    var x := Claim(rs[i], claimed, now);
    assert UpdateClaimedStatus(st, resultId, claimed, now, true).store.data.value.gameResults == rs[i := x];
    Counting.CountUpdate(rs, i, x, IsClaimed);
    Counting.CountUpdate(rs, i, x, IsWin);
    Counting.CountUpdate(rs, i, x, PlayedSince(later - WeekMillis));
    Counting.CountKeyUpdate(rs, i, x, GameOf, SpinGame);
    Counting.CountKeyUpdate(rs, i, x, GameOf, ScratchGame);
  }

  // ---------------------------------------------------------------- CSV

  /** The header names, in column order. */
  const HeaderNames: seq<string> :=
    ["ID", "Name", "WhatsApp", "Game", "Reward", "Code", "Claimed", "Timestamp", "Date", "IP Address"]

  const Header: string := Join(HeaderNames, ',')

  /** Text inside double quotes, with nothing escaped. */
  function Quote(s: string): (q: string)
    ensures |q| == |s| + 2 && q[0] == '"' && q[|q| - 1] == '"' && q[1..|q| - 1] == s
  {
    "\"" + s + "\""
  }

  /**
    The ten cells of a record's row. `dateOf` stands for the locale date text of a
    timestamp; an empty IP address (falsy) becomes "N/A".
   */
  function RowFields(r: GameResult, dateOf: nat -> string): (cells: seq<string>)
    ensures |cells| == |HeaderNames|
  {
    [ r.id, Quote(r.name), r.whatsapp, Quote(r.game), Quote(r.reward), r.code,
      if r.claimed then "Yes" else "No",
      DecimalString(r.timestamp),
      Quote(dateOf(r.timestamp)),
      if r.ipAddress == "" then "N/A" else r.ipAddress ]
  }

  function Row(r: GameResult, dateOf: nat -> string): string {
    Join(RowFields(r, dateOf), ',')
  }

  /** One line per record, in the given order. */
  function Rows(rs: seq<GameResult>, dateOf: nat -> string): (lines: seq<string>)
    ensures |lines| == |rs|
    ensures forall i :: 0 <= i < |rs| ==> lines[i] == Row(rs[i], dateOf)
  {
    if rs == [] then [] else [Row(rs[0], dateOf)] + Rows(rs[1..], dateOf)
  }

  /** What is exported: the given records, or every stored record newest first. */
  function ExportSource(st: Store, results: Option<seq<GameResult>>): seq<GameResult> {
    if results.Some? then results.value else GetGameResults(st, NoFilters)
  }

  /** `exportToCSV(results)`: the header line and one line per record, joined by newlines. */
  function ExportToCSV(st: Store, results: Option<seq<GameResult>>, dateOf: nat -> string): (csv: string)
    ensures csv == "" <==> ExportSource(st, results) == []
    ensures csv != "" ==> Header <= csv
  {
    var data := ExportSource(st, results);
    if data == [] then ""
    else
      var lines := [Header] + Rows(data, dateOf);
      JoinStartsWithFirst(lines, '\n');
      assert Header != "";
      Join(lines, '\n')
  }

  /** No cell of any row holds the character `c`. */
  predicate CellsOmit(rs: seq<GameResult>, dateOf: nat -> string, c: char) {
    forall i, j :: 0 <= i < |rs| && 0 <= j < |HeaderNames| ==> c !in RowFields(rs[i], dateOf)[j]
  }

  /** No column name holds a comma or a newline. */
  lemma HeaderNamesPlain()
    ensures forall j :: 0 <= j < |HeaderNames| ==> ',' !in HeaderNames[j] && '\n' !in HeaderNames[j]
  {
  }

  /**
    When no cell holds a newline, the export splits at newlines into the header and
    exactly one line per exported record, in order.
   */
  lemma ExportLines(st: Store, results: Option<seq<GameResult>>, dateOf: nat -> string)
    requires ExportSource(st, results) != []
    requires CellsOmit(ExportSource(st, results), dateOf, '\n')
    ensures Split(ExportToCSV(st, results, dateOf), '\n') == [Header] + Rows(ExportSource(st, results), dateOf)
  {
    var data := ExportSource(st, results);
    var lines := [Header] + Rows(data, dateOf);
    HeaderNamesPlain();
    JoinOmits(HeaderNames, ',', '\n');
    forall i | 0 <= i < |lines|
      ensures '\n' !in lines[i]
    {
      if i > 0 {
        var r := data[i - 1];
        forall j | 0 <= j < |HeaderNames|
          ensures '\n' !in RowFields(r, dateOf)[j]
        {
        }
        JoinOmits(RowFields(r, dateOf), ',', '\n');
      }
    }
    SplitJoin(lines, '\n');
  }

  // ------------------------------------------------------ reading a line back

  /** `k` moved `n` characters further on. */
  function ShiftBy(k: Option<nat>, n: nat): Option<nat> {
    if k.None? then None else Some(k.value + n)
  }

  /**
    The position of the first comma outside double quotes, starting inside quotes when
    `quoted` holds: the field separator a CSV reader looks for.
   */
  function FieldEnd(s: string, quoted: bool): (k: Option<nat>)
    ensures k.Some? ==> k.value < |s| && s[k.value] == ','
  {
    if s == [] then None
    else if s[0] == ',' && !quoted then Some(0)
    else
      var rest := FieldEnd(s[1..], if s[0] == '"' then !quoted else quoted);
      ShiftBy(rest, 1)
  }

  /** Whether a left-to-right scan of `t`, begun inside quotes when `q` holds, ends inside quotes. */
  function QuotedAfter(t: string, q: bool): bool
    decreases |t|
  {
    if t == [] then q else QuotedAfter(t[1..], if t[0] == '"' then !q else q)
  }

  /**
    `FieldEnd` finds the first comma that lies outside double quotes: the scan is outside
    quotes there, and every comma the scan meets outside quotes is at or after it.
   */
  lemma {:induction false} FieldEndIsFirstOutside(s: string, quoted: bool)
    ensures FieldEnd(s, quoted).Some? ==> !QuotedAfter(s[..FieldEnd(s, quoted).value], quoted)
    ensures forall j :: 0 <= j < |s| && s[j] == ',' && !QuotedAfter(s[..j], quoted) ==>
      FieldEnd(s, quoted).Some? && FieldEnd(s, quoted).value <= j
  {
    if s != [] && !(s[0] == ',' && !quoted) {
      var q' := if s[0] == '"' then !quoted else quoted;
      FieldEndIsFirstOutside(s[1..], q');
      var k := FieldEnd(s, quoted);
      if k.Some? {
        assert s[..k.value][1..] == s[1..][..k.value - 1];
      }
      forall j | 0 <= j < |s| && s[j] == ',' && !QuotedAfter(s[..j], quoted)
        ensures k.Some? && k.value <= j
      {
        assert j > 0;
        assert s[..j][1..] == s[1..][..j - 1];
        assert s[1..][j - 1] == ',';
      }
    }
  }

  /** The cells of one CSV line, split at the commas that lie outside double quotes. */
  function CsvCells(s: string): (cells: seq<string>)
    ensures |cells| >= 1
    decreases |s|
  {
    match FieldEnd(s, false)
    case None => [s]
    case Some(k) => [s[..k]] + CsvCells(s[k + 1..])
  }

  /** A cell written without quotes: no comma and no double quote. */
  predicate PlainCell(c: string) {
    ',' !in c && '"' !in c
  }

  /** A cell in double quotes with no double quote inside; commas are allowed there. */
  predicate QuotedCell(c: string) {
    |c| >= 2 && c[0] == '"' && c[|c| - 1] == '"' && '"' !in c[1..|c| - 1]
  }

  predicate CsvCell(c: string) {
    PlainCell(c) || QuotedCell(c)
  }

  /** The text of a cell with its surrounding quotes removed. */
  function Unquote(c: string): string {
    if QuotedCell(c) then c[1..|c| - 1] else c
  }

  /** Text without double quotes (and, outside quotes, without commas) is scanned straight over. */
  lemma {:induction false} ScanOver(x: string, t: string, quoted: bool)
    requires '"' !in x && (quoted || ',' !in x)
    ensures FieldEnd(x + t, quoted) == ShiftBy(FieldEnd(t, quoted), |x|)
  {
    if x == [] {
      assert x + t == t;
    } else {
      assert (x + t)[1..] == x[1..] + t;
      ScanOver(x[1..], t, quoted);
    }
  }

  /** Scanning a whole well-formed cell ends outside quotes, where the cell ends. */
  lemma CellScan(c: string, t: string)
    requires CsvCell(c)
    ensures FieldEnd(c + t, false) == ShiftBy(FieldEnd(t, false), |c|)
  {
    if PlainCell(c) {
      ScanOver(c, t, false);
    } else {
      var m := c[1..|c| - 1];
      assert c + t == ['"'] + (m + (['"'] + t));
      assert (c + t)[1..] == m + (['"'] + t);
      ScanOver(m, ['"'] + t, true);
      assert (['"'] + t)[1..] == t;
    }
  }

  /** Joining well-formed cells with commas and reading the line back gives the same cells. */
  lemma {:induction false} CsvCellsJoin(cells: seq<string>)
    requires |cells| >= 1
    requires forall j :: 0 <= j < |cells| ==> CsvCell(cells[j])
    ensures CsvCells(Join(cells, ',')) == cells
  {
    var c := cells[0];
    if |cells| == 1 {
      CellScan(c, []);
      assert c + [] == c;
    } else {
      var rest := Join(cells[1..], ',');
      var line := c + [','] + rest;
      assert Join(cells, ',') == line;
      CellScan(c, [','] + rest);
      assert c + ([','] + rest) == line;
      assert FieldEnd(line, false) == Some(|c|);
      assert line[..|c|] == c;
      assert line[|c| + 1..] == rest;
      CsvCellsJoin(cells[1..]);
      assert cells == [c] + cells[1..];
    }
  }

  /**
    The record's text is safe to read back: the four quoted cells hold no double quote,
    the other free-text cells neither a comma nor a double quote.
   */
  predicate CsvSafe(r: GameResult, dateOf: nat -> string) {
    && PlainCell(r.id) && PlainCell(r.whatsapp) && PlainCell(r.code) && PlainCell(r.ipAddress)
    && '"' !in r.name && '"' !in r.game && '"' !in r.reward && '"' !in dateOf(r.timestamp)
  }

  lemma QuoteCell(s: string)
    requires '"' !in s
    ensures QuotedCell(Quote(s)) && Unquote(Quote(s)) == s
  {
  }

  /** Every cell of a safe record's row is well formed. */
  lemma RowCells(r: GameResult, dateOf: nat -> string)
    requires CsvSafe(r, dateOf)
    ensures forall j :: 0 <= j < |HeaderNames| ==> CsvCell(RowFields(r, dateOf)[j])
  {
    QuoteCell(r.name);
    QuoteCell(r.game);
    QuoteCell(r.reward);
    QuoteCell(dateOf(r.timestamp));
    var d := DecimalString(r.timestamp);
    assert ',' !in d && '"' !in d by {
      assert forall k :: 0 <= k < |d| ==> IsDigit(d[k]);
    }
  }

  /**
    A safe record's row reads back, quote-aware, into its ten cells; the quoted cells
    give the name, game, reward and date unchanged.
   */
  lemma RowReadBack(r: GameResult, dateOf: nat -> string)
    requires CsvSafe(r, dateOf)
    ensures
      var cells := CsvCells(Row(r, dateOf));
      && cells == RowFields(r, dateOf)
      && |cells| == |HeaderNames|
      && cells[0] == r.id && Unquote(cells[1]) == r.name && cells[2] == r.whatsapp
      && Unquote(cells[3]) == r.game && Unquote(cells[4]) == r.reward && cells[5] == r.code
      && Unquote(cells[8]) == dateOf(r.timestamp)
  {
    RowCells(r, dateOf);
    CsvCellsJoin(RowFields(r, dateOf));
    QuoteCell(r.name);
    QuoteCell(r.game);
    QuoteCell(r.reward);
    QuoteCell(dateOf(r.timestamp));
  }

  /**
    When no cell holds a newline, line `i + 1` of the export reads back, quote-aware,
    into the ten cells of record `i`, provided that record's text is safe.
   */
  lemma ExportCells(st: Store, results: Option<seq<GameResult>>, dateOf: nat -> string, i: nat)
    requires i < |ExportSource(st, results)|
    requires CellsOmit(ExportSource(st, results), dateOf, '\n')
    requires CsvSafe(ExportSource(st, results)[i], dateOf)
    ensures |Split(ExportToCSV(st, results, dateOf), '\n')| == |ExportSource(st, results)| + 1
    ensures CsvCells(Split(ExportToCSV(st, results, dateOf), '\n')[i + 1])
      == RowFields(ExportSource(st, results)[i], dateOf)
  {
    ExportLines(st, results, dateOf);
    var data := ExportSource(st, results);
    var lines := [Header] + Rows(data, dateOf);
    assert lines[i + 1] == Row(data[i], dateOf);
    RowReadBack(data[i], dateOf);
  }

  /** The header line reads back into the ten column names. */
  lemma HeaderCells()
    ensures CsvCells(Header) == HeaderNames
  {
    HeaderNamesPlain();
    forall j | 0 <= j < |HeaderNames|
      ensures CsvCell(HeaderNames[j])
    {
      assert '"' !in HeaderNames[j];
    }
    CsvCellsJoin(HeaderNames);
  }
}

=== FILE: rewards.dfy ===
/**
  Reward tables and the weighted draw of `GameController.selectRandomReward`:
  a first-crossing search over the running sums of the probabilities.
 */
module Rewards {
  import opened Optional

  /** One row of a reward table: `{text, probability}`. */
  datatype Reward = Reward(text: string, probability: real)

  const NoWin: string := "No Win"

  /** What an absent or empty table yields. */
  const NoWinReward: Reward := Reward(NoWin, 1.0)

  const SpinGame: string := "Spin & Win"
  const ScratchGame: string := "Scratch & Win"

  /** Sum of the first `i` probabilities: `cumulativeProbability` after `i` rows. */
  function PrefixSum(rs: seq<Reward>, i: nat): real
    requires i <= |rs|
  {
    if i == 0 then 0.0 else PrefixSum(rs, i - 1) + rs[i - 1].probability
  }

  /** `rewards.reduce((sum, reward) => sum + reward.probability, 0)`. */
  function TotalProbability(rs: seq<Reward>): real {
    PrefixSum(rs, |rs|)
  }

  predicate NonNegative(rs: seq<Reward>) {
    forall i :: 0 <= i < |rs| ==> rs[i].probability >= 0.0
  }

  /** The first row from `i` on whose running sum reaches `x`, if there is one. */
  function FirstCrossing(rs: seq<Reward>, x: real, i: nat): (k: Option<nat>)
    requires i <= |rs|
    decreases |rs| - i
    ensures k.Some? ==> i <= k.value < |rs| && x <= PrefixSum(rs, k.value + 1)
    ensures k.Some? ==> forall j :: i < j <= k.value ==> PrefixSum(rs, j) < x
    ensures k.None? ==> forall j :: i < j <= |rs| ==> PrefixSum(rs, j) < x
  {
    if i == |rs| then None
    else if x <= PrefixSum(rs, i + 1) then Some(i)
    else FirstCrossing(rs, x, i + 1)
  }

  /** The row the loop returns for `random == x`: the first crossing, or the last row as fallback. */
  function CrossingIndex(rs: seq<Reward>, x: real): (k: nat)
    requires rs != []
    ensures k < |rs|
  {
    match FirstCrossing(rs, x, 0)
    case Some(k) => k
    case None => |rs| - 1
  }

  /** The draw `u` scaled to the table's total: `Math.random() * totalProbability`. */
  function Scale(u: real, t: real): real {
    u * t
  }

  /** The row drawn from a non-empty table for `u = Math.random()`. */
  function SelectIndex(rs: seq<Reward>, u: real): (k: nat)
    requires rs != []
    ensures k < |rs|
  {
    CrossingIndex(rs, Scale(u, TotalProbability(rs)))
  }

  /** `selectRandomReward(rewards)` with the draw `u` passed in. */
  function SelectRandomReward(rewards: Option<seq<Reward>>, u: real): (r: Reward)
    ensures rewards.None? || rewards.value == [] ==> r == NoWinReward
    ensures rewards.Some? && rewards.value != [] ==> r in rewards.value
  {
    if rewards.None? || rewards.value == [] then NoWinReward
    else rewards.value[SelectIndex(rewards.value, u)]
  }

  /** With non-negative weights the running sum never decreases. */
  lemma {:induction false} PrefixMonotone(rs: seq<Reward>, i: nat, j: nat)
    requires NonNegative(rs)
    ensures i <= j <= |rs| ==> PrefixSum(rs, i) <= PrefixSum(rs, j)
    decreases j
  {
    if i < j <= |rs| {
      assert rs[j - 1].probability >= 0.0;
      PrefixMonotone(rs, i, j - 1);
    }
  }

  /** A draw of at most the total always crosses some running sum. */
  lemma CrossingExists(rs: seq<Reward>, x: real)
    requires rs != [] && x <= TotalProbability(rs)
    ensures FirstCrossing(rs, x, 0).Some?
  {
    assert TotalProbability(rs) == PrefixSum(rs, (|rs| - 1) + 1);
  }

  /** The scaled draw lies between 0 and the total for a draw in [0, 1] and a non-negative total. */
  lemma ScaledDraw(u: real, t: real)
    requires 0.0 <= u <= 1.0 && t >= 0.0
    ensures 0.0 <= Scale(u, t) <= t
  {
    assert t - u * t == (1.0 - u) * t;
  }

  /**
    The fallback to the last row is never taken: with a non-negative total and a draw in
    [0, 1], some running sum always reaches the scaled draw.
   */
  lemma FallbackUnreachable(rs: seq<Reward>, u: real)
    requires rs != [] && TotalProbability(rs) >= 0.0 && 0.0 <= u <= 1.0
    ensures FirstCrossing(rs, Scale(u, TotalProbability(rs)), 0).Some?
  {
    ScaledDraw(u, TotalProbability(rs));
    CrossingExists(rs, Scale(u, TotalProbability(rs)));
  }

  /**
    With non-negative weights row `k` is chosen exactly when `x` falls in its interval
    `(PrefixSum(k), PrefixSum(k + 1)]` (the first interval closed at 0 as well).
   */
  lemma SelectionInterval(rs: seq<Reward>, x: real, k: nat)
    requires NonNegative(rs) && k < |rs| && x <= TotalProbability(rs)
    ensures FirstCrossing(rs, x, 0) == Some(k) <==>
      (k == 0 || PrefixSum(rs, k) < x) && x <= PrefixSum(rs, k + 1)
  {
    CrossingExists(rs, x);
    var c := FirstCrossing(rs, x, 0).value;
    PrefixMonotone(rs, c + 1, k);
  }

  /** A larger draw never selects an earlier row, whatever the weights. */
  lemma CrossingMonotone(rs: seq<Reward>, x1: real, x2: real)
    requires rs != [] && x1 <= x2
    ensures CrossingIndex(rs, x1) <= CrossingIndex(rs, x2)
  {
  }

  /** For `u = Math.random()` itself: with a non-negative total a larger draw never selects an earlier row. */
  lemma SelectMonotone(rs: seq<Reward>, u1: real, u2: real)
    requires rs != [] && TotalProbability(rs) >= 0.0 && u1 <= u2
    ensures SelectIndex(rs, u1) <= SelectIndex(rs, u2)
  {
    var t := TotalProbability(rs);
    ScaleMonotone(u1, u2, t);
    CrossingMonotone(rs, Scale(u1, t), Scale(u2, t));
  }

  lemma ScaleMonotone(u1: real, u2: real, t: real)
    requires t >= 0.0 && u1 <= u2
    ensures Scale(u1, t) <= Scale(u2, t)
  {
    assert u2 * t - u1 * t == (u2 - u1) * t;
  }

  /** The spin table of the game script (`getDefaultSpinRewards`). */
  function DefaultSpinRewards(): (rs: seq<Reward>)
    ensures |rs| == 6 && NonNegative(rs)
    ensures TotalProbability(rs) == 1.0
  {
    var rs := [
      Reward("10% Off", 0.25), Reward("20% Off", 0.15), Reward("Free Avil Milk", 0.10),
      Reward("5% Off", 0.20), Reward(NoWin, 0.25), Reward("15% Off", 0.05) ];
    assert PrefixSum(rs, 1) == 0.25;
    assert PrefixSum(rs, 2) == 0.40;
    assert PrefixSum(rs, 3) == 0.50;
    assert PrefixSum(rs, 4) == 0.70;
    assert PrefixSum(rs, 5) == 0.95;
    assert PrefixSum(rs, 6) == 1.0;
    rs
  }

  /** The scratch table of the game script (`getDefaultScratchRewards`). */
  function DefaultScratchRewards(): (rs: seq<Reward>)
    ensures |rs| == 6 && NonNegative(rs)
    ensures TotalProbability(rs) == 1.0
  {
    var rs := [
      Reward("10% Off", 0.20), Reward("20% Off", 0.10), Reward("Free Avil Milk", 0.15),
      Reward("5% Off", 0.25), Reward(NoWin, 0.25), Reward("15% Off", 0.05) ];
    assert PrefixSum(rs, 1) == 0.20;
    assert PrefixSum(rs, 2) == 0.30;
    assert PrefixSum(rs, 3) == 0.45;
    assert PrefixSum(rs, 4) == 0.70;
    assert PrefixSum(rs, 5) == 0.95;
    assert PrefixSum(rs, 6) == 1.0;
    rs
  }

  /**
    When a table sums to 1 and row `k` is the only one with its text, a draw yields that
    text exactly when it falls in the row's interval.
   */
  lemma OnlyRowWindow(rs: seq<Reward>, k: nat, u: real)
    requires NonNegative(rs) && TotalProbability(rs) == 1.0 && 0.0 <= u <= 1.0 && k < |rs|
    requires forall i :: 0 <= i < |rs| && i != k ==> rs[i].text != rs[k].text
    ensures SelectRandomReward(Some(rs), u).text == rs[k].text <==>
      (k == 0 || PrefixSum(rs, k) < u) && u <= PrefixSum(rs, k + 1)
  {
    FallbackUnreachable(rs, u);
    var j := SelectIndex(rs, u);
    assert FirstCrossing(rs, u, 0) == Some(j);
    assert rs[j].text == rs[k].text <==> j == k;
    SelectionInterval(rs, u, k);
  }

  /**
    With either default table, a draw gives "No Win" exactly when it lies in (0.70, 0.95]:
    a quarter of the unit interval.
   */
  lemma DefaultNoWinWindow(u: real)
    requires 0.0 <= u <= 1.0
    ensures SelectRandomReward(Some(DefaultSpinRewards()), u).text == NoWin <==> 0.70 < u <= 0.95
    ensures SelectRandomReward(Some(DefaultScratchRewards()), u).text == NoWin <==> 0.70 < u <= 0.95
  {
    var spin, scratch := DefaultSpinRewards(), DefaultScratchRewards();
    assert PrefixSum(spin, 5) == 0.95;
    assert PrefixSum(scratch, 5) == 0.95;
    OnlyRowWindow(spin, 4, u);
    OnlyRowWindow(scratch, 4, u);
  }
}

=== FILE: session.dfy ===
/**
  The play-session state of `GameController`: the `currentGame`, `gameResult` and
  `isPlaying` fields across starting, finishing and resetting a game, with the bounded
  retry of `generateUniqueRewardCode`. The draw, the code generator and the storage the
  game reads are parameters.
 */
module Session {
  import opened Optional
  import opened Rewards
  import opened Ledger
  import opened LedgerQuery

  /** The `{game, reward, code}` object kept after a play; `game` copies `currentGame`. */
  datatype PlayResult = PlayResult(game: Option<string>, reward: string, code: string)

  datatype Controller = Controller(
    currentGame: Option<string>,
    gameResult: Option<PlayResult>,
    isPlaying: bool)

  /** The state after construction and after `resetGame()`. */
  const Idle: Controller := Controller(None, None, false)

  /** `maxAttempts` of `generateUniqueRewardCode`. */
  const MaxAttempts: nat := 10

  /** A generated code and how many generator calls it took. */
  datatype CodeDraw = CodeDraw(code: string, attempts: nat)

  /**
    The do-while loop from attempt number `attempts` on: `gen(i)` is what the generator
    yields on call `i` (from 0), `unique` is the uniqueness oracle.
   */
  function Retry(gen: nat -> string, unique: string -> bool, attempts: nat): (r: CodeDraw)
    requires 1 <= attempts <= MaxAttempts
    decreases MaxAttempts - attempts
    ensures attempts <= r.attempts <= MaxAttempts
    ensures r.code == gen(r.attempts - 1)
    ensures unique(r.code) || r.attempts == MaxAttempts
    ensures forall i :: attempts - 1 <= i < r.attempts - 1 ==> !unique(gen(i))
  {
    var code := gen(attempts - 1);
    if !unique(code) && attempts < MaxAttempts then Retry(gen, unique, attempts + 1)
    else CodeDraw(code, attempts)
  }

  /**
    `generateUniqueRewardCode()`: between 1 and 10 generator calls; the code is the last
    one generated; every earlier one was taken; a taken code comes back only after all 10.
   */
  function GenerateUniqueRewardCode(gen: nat -> string, unique: string -> bool): (r: CodeDraw)
    ensures 1 <= r.attempts <= MaxAttempts
    ensures r.code == gen(r.attempts - 1)
    ensures forall i :: 0 <= i < r.attempts - 1 ==> !unique(gen(i))
    ensures !unique(r.code) ==> r.attempts == MaxAttempts
  {
    Retry(gen, unique, 1)
  }

  /** The generator stops at the first free code, if one of the first 10 is free. */
  lemma FirstFreeCode(gen: nat -> string, unique: string -> bool, k: nat)
    requires k < MaxAttempts && unique(gen(k))
    requires forall i :: 0 <= i < k ==> !unique(gen(i))
    ensures GenerateUniqueRewardCode(gen, unique) == CodeDraw(gen(k), k + 1)
  {
    var last: nat := GenerateUniqueRewardCode(gen, unique).attempts - 1;
    assert last < k ==> !unique(gen(last));
  }

  /** The table a game draws from: the stored one for its key, else the script's default. */
  function RewardTable(st: Store, key: string, defaults: seq<Reward>): (rs: seq<Reward>)
    ensures GetGameSettings(st, key).None? ==> rs == defaults
    ensures GetGameSettings(st, key).Some? ==> rs == GetGameSettings(st, key).value.rewards
  {
    match GetGameSettings(st, key)
    case Some(cfg) => cfg.rewards
    case None => defaults
  }

  /** A code for a play: generated against the stored records. */
  function PlayCode(st: Store, gen: nat -> string): string {
    GenerateUniqueRewardCode(gen, c => IsCodeUnique(st, c)).code
  }

  /** A spin between its start and the end of the wheel animation. */
  datatype Spin = Spin(ctrl: Controller, pending: Option<Reward>)

  /**
    The part of `startSpinGame()` before the animation is awaited: ignored while a game
    is playing, otherwise mark the spin as playing and draw its reward.
   */
  function BeginSpin(c: Controller, st: Store, u: real): (s: Spin)
    ensures c.isPlaying ==> s == Spin(c, None)
    ensures !c.isPlaying ==>
      && s.ctrl == Controller(Some(SpinGame), c.gameResult, true)
      && s.pending == Some(SelectRandomReward(Some(RewardTable(st, SpinGameKey, DefaultSpinRewards())), u))
  {
    if c.isPlaying then Spin(c, None)
    else
      var rewards := RewardTable(st, SpinGameKey, DefaultSpinRewards());
      Spin(Controller(Some(SpinGame), c.gameResult, true), Some(SelectRandomReward(Some(rewards), u)))
  }

  /** The rest of `startSpinGame()`: generate the code, keep the result, stop playing. */
  function FinishSpin(c: Controller, reward: Reward, st: Store, gen: nat -> string): (r: Controller)
    ensures !r.isPlaying && r.currentGame == c.currentGame
    ensures r.gameResult == Some(PlayResult(c.currentGame, reward.text, PlayCode(st, gen)))
  {
    Controller(c.currentGame, Some(PlayResult(c.currentGame, reward.text, PlayCode(st, gen))), false)
  }

  /** `startSpinGame()` when nothing else happens while the wheel turns. */
  function StartSpinGame(c: Controller, st: Store, u: real, gen: nat -> string): (r: Controller)
  {
    var s := BeginSpin(c, st, u);
    if s.pending.None? then s.ctrl else FinishSpin(s.ctrl, s.pending.value, st, gen)
  }

  /** `startScratchGame()`: the same steps with no await in between. */
  function StartScratchGame(c: Controller, st: Store, u: real, gen: nat -> string): (r: Controller)
  {
    if c.isPlaying then c
    else
      var rewards := RewardTable(st, ScratchGameKey, DefaultScratchRewards());
      var reward := SelectRandomReward(Some(rewards), u);
      Controller(Some(ScratchGame), Some(PlayResult(Some(ScratchGame), reward.text, PlayCode(st, gen))), false)
  }

  /** `resetGame()`. */
  function ResetGame(c: Controller): (r: Controller)
    ensures r.currentGame.None? && r.gameResult.None? && !r.isPlaying
  {
    Idle
  }

  /** What a completed play of `game` from `table` leaves behind. */
  predicate PlayedFrom(r: Controller, game: string, table: seq<Reward>, st: Store, gen: nat -> string) {
    && !r.isPlaying
    && r.currentGame == Some(game)
    && r.gameResult.Some?
    && r.gameResult.value.game == Some(game)
    && (if table == [] then r.gameResult.value.reward == NoWin
        else exists i :: 0 <= i < |table| && r.gameResult.value.reward == table[i].text)
    && (exists k :: 0 <= k < MaxAttempts && r.gameResult.value.code == gen(k))
    && (!IsCodeUnique(st, r.gameResult.value.code) ==>
          forall k :: 0 <= k < MaxAttempts ==> !IsCodeUnique(st, gen(k)))
  }

  /** The returned code is one of the first ten generated; a taken one means all ten were. */
  lemma CodeDrawShape(gen: nat -> string, unique: string -> bool)
    ensures exists k :: 0 <= k < MaxAttempts && GenerateUniqueRewardCode(gen, unique).code == gen(k)
    ensures !unique(GenerateUniqueRewardCode(gen, unique).code) ==>
      forall k :: 0 <= k < MaxAttempts ==> !unique(gen(k))
  {
    var d := GenerateUniqueRewardCode(gen, unique);
    assert d.code == gen(d.attempts - 1);
  }

  lemma PlayCodeShape(st: Store, gen: nat -> string)
    ensures exists k :: 0 <= k < MaxAttempts && PlayCode(st, gen) == gen(k)
    ensures !IsCodeUnique(st, PlayCode(st, gen)) ==>
      forall k :: 0 <= k < MaxAttempts ==> !IsCodeUnique(st, gen(k))
  {
    CodeDrawShape(gen, c => IsCodeUnique(st, c));
  }

  lemma DrawnText(table: seq<Reward>, u: real)
    ensures table == [] ==> SelectRandomReward(Some(table), u).text == NoWin
    ensures table != [] ==> exists i :: 0 <= i < |table| && SelectRandomReward(Some(table), u).text == table[i].text
  {
    if table != [] {
      var r := SelectRandomReward(Some(table), u);
      var i :| 0 <= i < |table| && table[i] == r;
    }
  }

  /**
    A start while a game is playing changes nothing; otherwise the spin completes with
    `isPlaying` false and a result for "Spin & Win".
   */
  lemma StartSpinGameOutcome(c: Controller, st: Store, u: real, gen: nat -> string)
    ensures c.isPlaying ==> StartSpinGame(c, st, u, gen) == c
    ensures !c.isPlaying ==>
      PlayedFrom(StartSpinGame(c, st, u, gen), SpinGame, RewardTable(st, SpinGameKey, DefaultSpinRewards()), st, gen)
  {
    PlayCodeShape(st, gen);
    DrawnText(RewardTable(st, SpinGameKey, DefaultSpinRewards()), u);
  }

  lemma StartScratchGameOutcome(c: Controller, st: Store, u: real, gen: nat -> string)
    ensures c.isPlaying ==> StartScratchGame(c, st, u, gen) == c
    ensures !c.isPlaying ==>
      PlayedFrom(StartScratchGame(c, st, u, gen), ScratchGame, RewardTable(st, ScratchGameKey, DefaultScratchRewards()), st, gen)
  {
    PlayCodeShape(st, gen);
    DrawnText(RewardTable(st, ScratchGameKey, DefaultScratchRewards()), u);
  }

  /** While the wheel turns, both start buttons are ignored. */
  lemma StartsIgnoredWhileSpinning(c: Controller, st: Store, st': Store, u: real, u': real, gen: nat -> string)
    requires !c.isPlaying
    ensures
      var spinning := BeginSpin(c, st, u).ctrl;
      && spinning.isPlaying
      && BeginSpin(spinning, st', u') == Spin(spinning, None)
      && StartScratchGame(spinning, st', u', gen) == spinning
  {
  }

  /** After a reset any start runs to completion. */
  lemma ResetAllowsPlay(c: Controller, st: Store, u: real, gen: nat -> string)
    ensures PlayedFrom(StartSpinGame(ResetGame(c), st, u, gen), SpinGame,
      RewardTable(st, SpinGameKey, DefaultSpinRewards()), st, gen)
    ensures PlayedFrom(StartScratchGame(ResetGame(c), st, u, gen), ScratchGame,
      RewardTable(st, ScratchGameKey, DefaultScratchRewards()), st, gen)
  {
    StartSpinGameOutcome(ResetGame(c), st, u, gen);
    StartScratchGameOutcome(ResetGame(c), st, u, gen);
  }

  /**
    On freshly initialised admin storage both games draw from the default tables, so a
    play ends in "No Win" exactly when the draw lies in (0.70, 0.95].
   */
  lemma FreshStoreNoWin(st: Store, now: nat, u: real, gen: nat -> string)
    requires st.admin.None? && 0.0 <= u <= 1.0
    ensures
      var seeded := InitializeStorage(st, now);
      && (StartSpinGame(Idle, seeded, u, gen).gameResult.value.reward == NoWin <==> 0.70 < u <= 0.95)
      && (StartScratchGame(Idle, seeded, u, gen).gameResult.value.reward == NoWin <==> 0.70 < u <= 0.95)
  {
    SeededSettings(st, now, SpinGameKey);
    DefaultNoWinWindow(u);
  }
}

=== FILE: text.dfy ===
/**
  String operations over `string` (a sequence of Unicode scalar values). The JavaScript
  built-ins the promo site calls: `trim`, the `\s` class, `replace(/c/g, …)`,
  `toLowerCase`, `includes`, `join` on one character, `Number.prototype.toString` for
  non-negative integers and `slice(-k)`. `Split`, `IndexOf` and `LastIndexOf` are not
  used by the site: they serve the readers that parse a share message, a WhatsApp link
  or an exported CSV back, for the round-trip lemmas.
 */
module Text {
  import opened Optional

  /**
    The ECMAScript WhiteSpace and LineTerminator code points: what `\s` matches in a
    regular expression and what `String.prototype.trim` removes.
   */
  predicate IsSpace(c: char) {
    var n := c as int;
    n == 0x09 || n == 0x0A || n == 0x0B || n == 0x0C || n == 0x0D || n == 0x20 || n == 0xA0
    || n == 0x1680 || (0x2000 <= n <= 0x200A) || n == 0x2028 || n == 0x2029
    || n == 0x202F || n == 0x205F || n == 0x3000 || n == 0xFEFF
  }

  /** `\d` without the `u` flag: the ASCII digits only. */
  predicate IsDigit(c: char) {
    '0' <= c <= '9'
  }

  predicate AllSpaces(s: string) {
    forall k :: 0 <= k < |s| ==> IsSpace(s[k])
  }

  predicate NoSpaces(s: string) {
    forall k :: 0 <= k < |s| ==> !IsSpace(s[k])
  }

  predicate AllDigits(s: string) {
    forall k :: 0 <= k < |s| ==> IsDigit(s[k])
  }

  /** JavaScript's `length`: code points above U+FFFF take two UTF-16 code units. */
  function Utf16Length(s: string): (n: nat)
    ensures |s| <= n <= 2 * |s|
  {
    if s == [] then 0 else (if s[0] as int >= 0x1_0000 then 2 else 1) + Utf16Length(s[1..])
  }

  // ---------------------------------------------------------------- trim

  /** Length of the run of white space at the start of `s`. */
  function LeadingSpaces(s: string): (n: nat)
    ensures n <= |s|
    ensures forall k :: 0 <= k < n ==> IsSpace(s[k])
    ensures n < |s| ==> !IsSpace(s[n])
  {
    if s != [] && IsSpace(s[0]) then 1 + LeadingSpaces(s[1..]) else 0
  }

  /** Length of the run of white space at the end of `s`. */
  function TrailingSpaces(s: string): (n: nat)
    ensures n <= |s|
    ensures forall k :: |s| - n <= k < |s| ==> IsSpace(s[k])
    ensures n < |s| ==> !IsSpace(s[|s| - 1 - n])
  {
    if s != [] && IsSpace(s[|s| - 1]) then 1 + TrailingSpaces(s[..|s| - 1]) else 0
  }

  /**
    `String.prototype.trim`: the slice of `s` left after removing white space at both
    ends. Everything removed is white space and what is kept neither starts nor ends
    with white space.
   */
  function Trim(s: string): (r: string)
    ensures LeadingSpaces(s) + |r| <= |s|
    ensures r == s[LeadingSpaces(s)..LeadingSpaces(s) + |r|]
    ensures forall k :: LeadingSpaces(s) + |r| <= k < |s| ==> IsSpace(s[k])
    ensures r != [] ==> !IsSpace(r[0]) && !IsSpace(r[|r| - 1])
  {
    var t := s[LeadingSpaces(s)..];
    t[..|t| - TrailingSpaces(t)]
  }

  /** A string is its leading spaces, its trimmed text and its trailing spaces. */
  lemma TrimSplit(s: string) returns (l: string, r: string)
    ensures s == l + Trim(s) + r
    ensures AllSpaces(l) && AllSpaces(r)
  {
    var lead := LeadingSpaces(s);
    var m := Trim(s);
    l, r := s[..lead], s[lead + |m|..];
    assert s == l + m + r;
  }

  /** Trimming white space padding around a trimmed string gives that string back. */
  lemma TrimPadded(l: string, x: string, r: string)
    requires AllSpaces(l) && AllSpaces(r)
    requires x != [] ==> !IsSpace(x[0]) && !IsSpace(x[|x| - 1])
    ensures Trim(l + x + r) == x
  {
    var s := l + x + r;
    var lead := LeadingSpaces(s);
    var t := Trim(s);
    assert forall k :: 0 <= k < |l| ==> s[k] == l[k];
    assert forall k :: |l| + |x| <= k < |s| ==> s[k] == r[k - |l| - |x|];
    if x == [] {
      assert forall k :: 0 <= k < |s| ==> IsSpace(s[k]);
      assert lead == |s|;
    } else {
      assert s[|l|] == x[0];
      assert lead == |l|;
      assert s[|l| + |x| - 1] == x[|x| - 1];
      assert lead + |t| == |l| + |x|;
      assert s[|l|..|l| + |x|] == x;
    }
  }

  /** `trim` is idempotent. */
  lemma TrimIdempotent(s: string)
    ensures Trim(Trim(s)) == Trim(s)
  {
    TrimPadded([], Trim(s), []);
    assert [] + Trim(s) + [] == Trim(s);
  }

  /** `s.replace(/\s/g, '')`: every white space character removed, the rest kept in order. */
  function RemoveSpaces(s: string): (r: string)
    ensures NoSpaces(r)
    ensures |r| <= |s|
  {
    if s == [] then ""
    else (if IsSpace(s[0]) then "" else [s[0]]) + RemoveSpaces(s[1..])
  }

  // ------------------------------------------------------------- replace

  /** `s.replace(/c/g, rep)` for a single literal character `c`. */
  function ReplaceAll(s: string, c: char, rep: string): string
  {
    if s == [] then "" else (if s[0] == c then rep else [s[0]]) + ReplaceAll(s[1..], c, rep)
  }

  /** Replacing a character by itself changes nothing. */
  lemma {:induction false} ReplaceAllIdentity(s: string, c: char)
    ensures ReplaceAll(s, c, [c]) == s
  {
    if s != [] {
      ReplaceAllIdentity(s[1..], c);
      assert s == [s[0]] + s[1..];
    }
  }

  lemma {:induction false} ReplaceAllConcat(a: string, b: string, c: char, rep: string)
    ensures ReplaceAll(a + b, c, rep) == ReplaceAll(a, c, rep) + ReplaceAll(b, c, rep)
  {
    if a == [] {
      assert a + b == b;
    } else {
      assert (a + b)[1..] == a[1..] + b;
      ReplaceAllConcat(a[1..], b, c, rep);
    }
  }

  lemma {:induction false} ReplaceAllAbsent(s: string, c: char, rep: string)
    requires c !in s
    ensures ReplaceAll(s, c, rep) == s
  {
    if s != [] {
      ReplaceAllAbsent(s[1..], c, rep);
      assert s == [s[0]] + s[1..];
    }
  }

  // ----------------------------------------------------------- lowercase

  /** Case folding of the ASCII letters, as `toLowerCase` does for them. */
  function LowerChar(c: char): char {
    if 'A' <= c <= 'Z' then (c as int + 32) as char else c
  }

  function LowerCase(s: string): string {
    seq(|s|, k requires 0 <= k < |s| => LowerChar(s[k]))
  }

  // ------------------------------------------------------------ includes

  predicate OccursAt(hay: string, needle: string, i: nat) {
    i + |needle| <= |hay| && hay[i..i + |needle|] == needle
  }

  /** `hay.includes(needle)`, searching from the left. */
  function Includes(hay: string, needle: string): bool
    decreases |hay|
  {
    if |needle| > |hay| then false
    else if hay[..|needle|] == needle then true
    else Includes(hay[1..], needle)
  }

  /** The left-to-right search finds `needle` exactly when it occurs somewhere in `hay`. */
  lemma {:induction false} IncludesIff(hay: string, needle: string)
    ensures Includes(hay, needle) <==> exists i: nat :: OccursAt(hay, needle, i)
    decreases |hay|
  {
    if |needle| > |hay| {
    } else if hay[..|needle|] == needle {
      assert OccursAt(hay, needle, 0);
    } else {
      IncludesIff(hay[1..], needle);
      if Includes(hay[1..], needle) {
        var j: nat :| OccursAt(hay[1..], needle, j);
        assert hay[j + 1..j + 1 + |needle|] == hay[1..][j..j + |needle|];
        assert OccursAt(hay, needle, j + 1);
      }
      if i: nat :| OccursAt(hay, needle, i) {
        assert i != 0;
        assert hay[1..][i - 1..i - 1 + |needle|] == hay[i..i + |needle|];
        assert OccursAt(hay[1..], needle, i - 1);
      }
    }
  }

  /** `s.substring(0, n)`: at most the first `n` characters. */
  function FirstN(s: string, n: nat): (r: string)
    ensures |r| == if |s| <= n then |s| else n
    ensures r <= s
  {
    if |s| <= n then s else s[..n]
  }

  // ------------------------------------------------------------- indexOf

  /** Position of the first `c` in `s`. */
  function IndexOf(s: string, c: char): (r: Option<nat>)
    ensures r.Some? ==> r.value < |s| && s[r.value] == c && c !in s[..r.value]
    ensures r.None? ==> c !in s
  {
    if s == [] then None
    else if s[0] == c then Some(0)
    else
      match IndexOf(s[1..], c)
      case None => None
      case Some(i) => assert s[..i + 1] == [s[0]] + s[1..][..i]; Some(i + 1)
  }

  /** Position of the last `c` in `s`. */
  function LastIndexOf(s: string, c: char): (r: Option<nat>)
    ensures r.Some? ==> r.value < |s| && s[r.value] == c && c !in s[r.value + 1..]
    ensures r.None? ==> c !in s
  {
    if s == [] then None
    else if s[|s| - 1] == c then Some(|s| - 1)
    else
      var r := LastIndexOf(s[..|s| - 1], c);
      assert r.Some? ==> s[r.value + 1..] == s[..|s| - 1][r.value + 1..] + [s[|s| - 1]];
      assert s == s[..|s| - 1] + [s[|s| - 1]];
      r
  }

  /** A `c` with none before it is the first one. */
  lemma {:induction false} IndexOfIs(s: string, c: char, p: nat)
    requires p < |s| && s[p] == c && c !in s[..p]
    ensures IndexOf(s, c) == Some(p)
    decreases p
  {
    if p > 0 {
      assert s[0] == s[..p][0];
      var tail := s[1..];
      assert tail[..p - 1] == s[1..p];
      assert s[1..p] <= s[..p][1..];
      IndexOfIs(tail, c, p - 1);
    }
  }

  /** A `c` after a stretch without one is the first. */
  lemma IndexOfAfter(x: string, c: char, y: string)
    requires c !in x
    ensures IndexOf(x + [c] + y, c) == Some(|x|)
  {
    var s := x + [c] + y;
    assert s[..|x|] == x;
    IndexOfIs(s, c, |x|);
  }

  /** A `c` with none after it is the last one. */
  lemma {:induction false} LastIndexOfIs(s: string, c: char, p: nat)
    requires p < |s| && s[p] == c && c !in s[p + 1..]
    ensures LastIndexOf(s, c) == Some(p)
    decreases |s|
  {
    var n := |s| - 1;
    if p < n {
      assert s[n] == s[p + 1..][n - p - 1];
      var init := s[..n];
      assert init[p + 1..] <= s[p + 1..];
      LastIndexOfIs(init, c, p);
    }
  }

  /** A `c` before a stretch without one is the last. */
  lemma LastIndexOfBefore(x: string, c: char, y: string)
    requires c !in y
    ensures LastIndexOf(x + [c] + y, c) == Some(|x|)
  {
    var s := x + [c] + y;
    assert s[|x| + 1..] == y;
    LastIndexOfIs(s, c, |x|);
  }

  // ------------------------------------------------------- join and split

  /** `parts.join(sep)`. */
  function Join(parts: seq<string>, sep: char): string
  {
    if |parts| == 0 then ""
    else if |parts| == 1 then parts[0]
    else parts[0] + [sep] + Join(parts[1..], sep)
  }

  /** `s.split(sep)`: always at least one piece, the pieces free of `sep`. */
  function Split(s: string, sep: char): (parts: seq<string>)
    ensures |parts| >= 1
  {
    if s == [] then [""]
    else
      var rest := Split(s[1..], sep);
      if s[0] == sep then [""] + rest else [[s[0]] + rest[0]] + rest[1..]
  }

  lemma {:induction false} SplitNoSeparator(p: string, sep: char)
    requires sep !in p
    ensures Split(p, sep) == [p]
  {
    if p != [] {
      SplitNoSeparator(p[1..], sep);
      assert p == [p[0]] + p[1..];
    }
  }

  lemma {:induction false} SplitAfterPiece(p: string, t: string, sep: char)
    requires sep !in p
    ensures Split(p + [sep] + t, sep) == [p] + Split(t, sep)
  {
    var s := p + [sep] + t;
    if p == [] {
      assert s[1..] == t;
    } else {
      assert s[1..] == p[1..] + [sep] + t;
      SplitAfterPiece(p[1..], t, sep);
      assert p == [p[0]] + p[1..];
    }
  }

  /** A character other than the separator that no piece holds is not in the joined text. */
  lemma {:induction false} JoinOmits(parts: seq<string>, sep: char, c: char)
    requires c != sep
    requires forall i :: 0 <= i < |parts| ==> c !in parts[i]
    ensures c !in Join(parts, sep)
  {
    if |parts| > 1 {
      JoinOmits(parts[1..], sep, c);
    }
  }

  /** Joining at least one piece starts with the first piece. */
  lemma JoinStartsWithFirst(parts: seq<string>, sep: char)
    requires |parts| >= 1
    ensures parts[0] <= Join(parts, sep)
  {
  }

  /** Splitting undoes joining when no piece contains the separator. */
  lemma {:induction false} SplitJoin(parts: seq<string>, sep: char)
    requires |parts| >= 1
    requires forall i :: 0 <= i < |parts| ==> sep !in parts[i]
    ensures Split(Join(parts, sep), sep) == parts
  {
    if |parts| == 1 {
      SplitNoSeparator(parts[0], sep);
    } else {
      SplitJoin(parts[1..], sep);
      SplitAfterPiece(parts[0], Join(parts[1..], sep), sep);
      assert parts == [parts[0]] + parts[1..];
    }
  }

  // ------------------------------------------------------ decimal numbers

  function DigitChar(d: nat): (c: char)
    requires d < 10
    ensures IsDigit(c)
  {
    ('0' as int + d) as char
  }

  function DigitValue(c: char): (d: nat)
    requires IsDigit(c)
    ensures d < 10
  {
    c as int - '0' as int
  }

  /** `n.toString()` for a non-negative integer. */
  function DecimalString(n: nat): (s: string)
    ensures s != [] && AllDigits(s)
  {
    if n < 10 then [DigitChar(n)] else DecimalString(n / 10) + [DigitChar(n % 10)]
  }

  /** The number a string of decimal digits denotes. */
  function DigitsValue(s: string): nat
    requires AllDigits(s)
  {
    if s == [] then 0 else 10 * DigitsValue(s[..|s| - 1]) + DigitValue(s[|s| - 1])
  }

  /** Reading back the decimal string of `n` gives `n`. */
  lemma {:induction false} DecimalRoundTrip(n: nat)
    ensures DigitsValue(DecimalString(n)) == n
  {
    if n >= 10 {
      DecimalRoundTrip(n / 10);
      var s := DecimalString(n);
      assert s[..|s| - 1] == DecimalString(n / 10);
    }
  }

  /** Numbers of at least 1000 are written with at least four digits. */
  lemma DecimalLength(n: nat)
    requires n >= 1000
    ensures |DecimalString(n)| >= 4
  {
    var a := n / 10;
    assert a >= 100;
    var b := a / 10;
    assert b >= 10;
    assert |DecimalString(n)| == |DecimalString(a)| + 1;
    assert |DecimalString(a)| == |DecimalString(b)| + 1;
    assert |DecimalString(b)| == |DecimalString(b / 10)| + 1;
  }

  function Pow10(k: nat): (p: nat)
    ensures p >= 1
  {
    if k == 0 then 1 else 10 * Pow10(k - 1)
  }

  /** `s.slice(-k)`: the last `k` characters, or all of `s` when it is shorter. */
  function LastN(s: string, k: nat): (r: string)
    ensures |r| == if |s| <= k then |s| else k
    ensures r == s[|s| - |r|..]
  {
    if |s| <= k then s else s[|s| - k..]
  }

  lemma MulAwayFromZero(d: int, m: int)
    requires m >= 0
    ensures d >= 1 ==> d * m >= m
    ensures d <= -1 ==> d * m <= -m
  {
    if d >= 1 {
      assert d * m == (d - 1) * m + m;
    } else if d <= -1 {
      assert d * m == (d + 1) * m - m;
    }
  }

  lemma ModUnique(x: int, m: int, q: int, r: int)
    requires m > 0 && 0 <= r < m && x == q * m + r
    ensures x % m == r
  {
    var q', r' := x / m, x % m;
    assert x == q' * m + r';
    assert (q - q') * m == r' - r;
    MulAwayFromZero(q - q', m);
  }

  lemma ModStep(a: nat, d: nat, m: nat)
    requires m >= 1 && d < 10
    ensures (10 * a + d) % (10 * m) == 10 * (a % m) + d
  {
    var q, r := a / m, a % m;
    assert a == q * m + r;
    assert 10 * a + d == q * (10 * m) + (10 * r + d);
    ModUnique(10 * a + d, 10 * m, q, 10 * r + d);
  }

  /** The last `k` digits of a decimal string denote its value modulo 10^k. */
  lemma {:induction false} SuffixValue(s: string, k: nat)
    requires AllDigits(s) && k <= |s|
    ensures DigitsValue(s[|s| - k..]) == DigitsValue(s) % Pow10(k)
  {
    if k == 0 {
      assert s[|s|..] == [];
    } else {
      var init := s[..|s| - 1];
      var suffix := s[|s| - k..];
      SuffixValue(init, k - 1);
      assert suffix[..|suffix| - 1] == init[|init| - (k - 1)..];
      assert suffix[|suffix| - 1] == s[|s| - 1];
      ModStep(DigitsValue(init), DigitValue(s[|s| - 1]), Pow10(k - 1));
    }
  }
}

=== FILE: utility.dfy ===
/**
  The pure helpers of the site's utility script: claim-code shape, contact-form
  validation, the HTML-escaping sanitiser and the WhatsApp share link.
 */
module Utility {
  import opened Optional
  import opened Text

  // ------------------------------------------------------------ claim codes

  const CodeAlphabet: string := "ABCDEFGHIJKLMNOPQRSTUVWXYZ0123456789"

  /** How many trailing digits of the clock a code carries (`slice(-4)`). */
  const ClockDigits: nat := 4

  /** Every draw lies where `Math.random()` puts it. */
  predicate UnitDraws(draws: seq<real>) {
    forall k :: 0 <= k < |draws| ==> 0.0 <= draws[k] < 1.0
  }

  /**
    `characters.charAt(Math.floor(u * characters.length))`; `charAt` yields the empty
    string for an index out of range.
   */
  function CodeChar(u: real): (r: string)
    ensures |r| <= 1
    ensures 0.0 <= u < 1.0 ==> |r| == 1 && r[0] in CodeAlphabet
  {
    var i := (u * (|CodeAlphabet| as real)).Floor;
    if 0 <= i < |CodeAlphabet| then [CodeAlphabet[i]] else ""
  }

  /** The random part of a code: one alphabet character per draw, in draw order. */
  function RandomPart(draws: seq<real>): (r: string)
    ensures |r| <= |draws|
    ensures UnitDraws(draws) ==> |r| == |draws| && forall k :: 0 <= k < |r| ==> r[k] in CodeAlphabet
  {
    if draws == [] then "" else CodeChar(draws[0]) + RandomPart(draws[1..])
  }

  /** The clock suffix of a code: the last four characters of `now.toString()`. */
  function ClockSuffix(now: nat): string {
    LastN(DecimalString(now), ClockDigits)
  }

  /** From 1000 ms on, the suffix is exactly four digits that spell `now % 10000`. */
  lemma ClockSuffixDigits(now: nat)
    ensures |ClockSuffix(now)| <= ClockDigits && AllDigits(ClockSuffix(now))
    ensures now >= 1000 ==> |ClockSuffix(now)| == ClockDigits && DigitsValue(ClockSuffix(now)) == now % 10000
  {
    if now >= 1000 {
      DecimalLength(now);
      SuffixValue(DecimalString(now), ClockDigits);
      DecimalRoundTrip(now);
      assert Pow10(4) == 10000;
    }
  }

  /**
    `generateUniqueCode(length)` with one draw of `Math.random()` per requested character
    (so `length` is `|draws|`) and `now` the value of `Date.now()`.
   */
  function GenerateUniqueCode(draws: seq<real>, now: nat): (code: string)
    ensures |code| <= |draws| + ClockDigits
    ensures UnitDraws(draws) ==>
      |code| >= |draws| && forall k :: 0 <= k < |draws| ==> code[k] in CodeAlphabet
    ensures UnitDraws(draws) && now >= 1000 ==>
      && |code| == |draws| + ClockDigits
      && AllDigits(code[|draws|..])
      && DigitsValue(code[|draws|..]) == now % 10000
  {
    ClockSuffixDigits(now);
    var random := RandomPart(draws);
    assert UnitDraws(draws) ==> (random + ClockSuffix(now))[|draws|..] == ClockSuffix(now);
    random + ClockSuffix(now)
  }

  // ------------------------------------------------------- form validation

  datatype FormField = NameField | WhatsappField

  /** The `{isValid, errors}` object; `errors` maps a field to its message. */
  datatype Validation = Validation(isValid: bool, errors: map<FormField, string>)

  const NameError: string := "Name must be at least 2 characters long"
  const WhatsappError: string := "Please enter a valid WhatsApp number"
  const MinNameLength: nat := 2

  /** One leading digit 1-9 and up to 15 more. */
  const MaxPhoneDigits: nat := 16

  /** A string value is truthy in JavaScript when present and non-empty. */
  predicate Truthy(v: Option<string>) {
    v.Some? && v.value != ""
  }

  /**
    `t` read from offset `o` (0, or 1 after a leading `+`) is a digit 1-9 followed by at
    most 15 further digits, up to the end of `t`.
   */
  predicate PhoneFrom(t: string, o: nat) {
    && o <= 1 && o < |t|
    && (o == 1 ==> t[0] == '+')
    && '1' <= t[o] <= '9'
    && |t| - o <= MaxPhoneDigits
    && forall k :: o < k < |t| ==> IsDigit(t[k])
  }

  /** The regular expression `^[\+]?[1-9][\d]{0,15}$`, matched against all of `t`. */
  ghost predicate PhonePattern(t: string) {
    exists o: nat :: PhoneFrom(t, o)
  }

  /** Deterministic matcher: the optional `+` is taken exactly when it is there. */
  function IsPhoneNumber(t: string): (b: bool)
    ensures b <==> PhonePattern(t)
  {
    var o := if t != [] && t[0] == '+' then 1 else 0;
    assert forall o': nat :: PhoneFrom(t, o') ==> o' == o;
    PhoneFrom(t, o)
  }

  /**
    `validateFormInputs(name, whatsapp)`: the name must trim to at least two UTF-16 code
    units; the number, with all white space removed, must match the phone pattern.
   */
  function ValidateFormInputs(name: Option<string>, whatsapp: Option<string>): (v: Validation)
    ensures v.isValid <==> v.errors == map[]
    ensures v.errors.Keys <= {NameField, WhatsappField}
    ensures NameField in v.errors <==> name.None? || Utf16Length(Trim(name.value)) < MinNameLength
    ensures WhatsappField in v.errors <==> whatsapp.None? || !PhonePattern(RemoveSpaces(whatsapp.value))
    ensures NameField in v.errors ==> v.errors[NameField] == NameError
    ensures WhatsappField in v.errors ==> v.errors[WhatsappField] == WhatsappError
  {
    var nameBad := !Truthy(name) || Utf16Length(Trim(name.value)) < MinNameLength;
    var phoneBad := !Truthy(whatsapp) || !IsPhoneNumber(RemoveSpaces(whatsapp.value));
    var errors := ErrorMap(nameBad, phoneBad);
    Validation(|errors.Keys| == 0, errors)
  }

  /** The `errors` object: one message per failed field, and no other key. */
  function ErrorMap(nameBad: bool, phoneBad: bool): (m: map<FormField, string>)
    ensures m.Keys <= {NameField, WhatsappField}
    ensures NameField in m <==> nameBad
    ensures WhatsappField in m <==> phoneBad
    ensures NameField in m ==> m[NameField] == NameError
    ensures WhatsappField in m ==> m[WhatsappField] == WhatsappError
    ensures |m.Keys| == 0 <==> m == map[]
  {
    if nameBad && phoneBad then map[NameField := NameError, WhatsappField := WhatsappError]
    else if nameBad then map[NameField := NameError]
    else if phoneBad then map[WhatsappField := WhatsappError]
    else map[]
  }

  // ------------------------------------------------------------- escaping

  /** A character and the character reference that stands for it. */
  datatype Entity = Entity(ch: char, text: string)

  /** Index of the entry that escapes `c`, if any. */
  function EntityFor(tbl: seq<Entity>, c: char): (i: Option<nat>)
    ensures i.Some? ==> i.value < |tbl| && tbl[i.value].ch == c
    ensures i.None? ==> forall j :: 0 <= j < |tbl| ==> tbl[j].ch != c
  {
    if tbl == [] then None
    else if tbl[0].ch == c then Some(0)
    else match EntityFor(tbl[1..], c)
      case None => None
      case Some(j) => Some(j + 1)
  }

  /** Index of the first entry whose reference begins `s`, if any. */
  function EntityAt(tbl: seq<Entity>, s: string): (i: Option<nat>)
    ensures i.Some? ==> i.value < |tbl| && tbl[i.value].text <= s
    ensures i.None? ==> forall j :: 0 <= j < |tbl| ==> !(tbl[j].text <= s)
  {
    if tbl == [] then None
    else if tbl[0].text <= s then Some(0)
    else match EntityAt(tbl[1..], s)
      case None => None
      case Some(j) => Some(j + 1)
  }

  function EscapeChar(tbl: seq<Entity>, c: char): string {
    match EntityFor(tbl, c)
    case Some(i) => tbl[i].text
    case None => [c]
  }

  /** Every character that has an entry replaced by its reference, in one pass. */
  function Escape(tbl: seq<Entity>, s: string): string {
    if s == [] then "" else EscapeChar(tbl, s[0]) + Escape(tbl, s[1..])
  }

  /** Reads references back into characters, leaving everything else alone. */
  function Unescape(tbl: seq<Entity>, s: string): string
    requires forall i :: 0 <= i < |tbl| ==> tbl[i].text != []
    decreases |s|
  {
    if s == [] then ""
    else match EntityAt(tbl, s)
      case Some(i) => [tbl[i].ch] + Unescape(tbl, s[|tbl[i].text|..])
      case None => [s[0]] + Unescape(tbl, s[1..])
  }

  /** A reference starts with `&`, has no other `&` and no white space, and escapes a non-space. */
  predicate ValidEntity(e: Entity) {
    && |e.text| >= 2
    && e.text[0] == '&'
    && (forall k :: 1 <= k < |e.text| ==> e.text[k] != '&')
    && NoSpaces(e.text)
    && !IsSpace(e.ch)
  }

  /** Two entries escape different characters and neither reference is a prefix of the other. */
  predicate Unambiguous(a: Entity, b: Entity) {
    a.ch != b.ch && !(a.text <= b.text) && !(b.text <= a.text)
  }

  /** A table that can be decoded: valid, unambiguous entries, one of which escapes `&`. */
  predicate WellFormedTable(tbl: seq<Entity>) {
    && (forall i :: 0 <= i < |tbl| ==> ValidEntity(tbl[i]))
    && (forall i, j :: 0 <= i < j < |tbl| ==> Unambiguous(tbl[i], tbl[j]))
    && EntityFor(tbl, '&').Some?
  }

  /** Position `k` of `r` begins one of the table's references. */
  predicate EntityStartsAt(tbl: seq<Entity>, r: string, k: nat)
    requires k <= |r|
  {
    exists i :: 0 <= i < |tbl| && tbl[i].text <= r[k..]
  }

  lemma {:induction false} EscapeConcat(tbl: seq<Entity>, a: string, b: string)
    ensures Escape(tbl, a + b) == Escape(tbl, a) + Escape(tbl, b)
  {
    if a == [] {
      assert a + b == b;
    } else {
      assert (a + b)[1..] == a[1..] + b;
      EscapeConcat(tbl, a[1..], b);
    }
  }

  /** White space is never escaped. */
  lemma {:induction false} EscapeSpaces(tbl: seq<Entity>, s: string)
    requires WellFormedTable(tbl) && AllSpaces(s)
    ensures Escape(tbl, s) == s
  {
    if s != [] {
      assert IsSpace(s[0]);
      assert EntityFor(tbl, s[0]).None?;
      EscapeSpaces(tbl, s[1..]);
      assert s == [s[0]] + s[1..];
    }
  }

  lemma EscapeCharEnds(tbl: seq<Entity>, c: char)
    requires WellFormedTable(tbl) && !IsSpace(c)
    ensures EscapeChar(tbl, c) != []
    ensures NoSpaces(EscapeChar(tbl, c))
  {
  }

  /** Escaping a string without white space at its ends leaves none at its ends. */
  lemma EscapeEnds(tbl: seq<Entity>, s: string)
    requires WellFormedTable(tbl)
    requires s != [] && !IsSpace(s[0]) && !IsSpace(s[|s| - 1])
    ensures Escape(tbl, s) != []
    ensures !IsSpace(Escape(tbl, s)[0]) && !IsSpace(Escape(tbl, s)[|Escape(tbl, s)| - 1])
  {
    var init := s[..|s| - 1];
    assert s == init + [s[|s| - 1]];
    EscapeConcat(tbl, init, [s[|s| - 1]]);
    assert Escape(tbl, [s[|s| - 1]]) == EscapeChar(tbl, s[|s| - 1]) + Escape(tbl, []);
    EscapeCharEnds(tbl, s[0]);
    EscapeCharEnds(tbl, s[|s| - 1]);
    var e := Escape(tbl, s);
    var last := EscapeChar(tbl, s[|s| - 1]);
    assert e == Escape(tbl, init) + last;
    assert e[|e| - 1] == last[|last| - 1];
  }

  /** Escaping leaves padding of spaces on either side untouched. */
  lemma EscapePadded(tbl: seq<Entity>, l: string, m: string, r: string)
    requires WellFormedTable(tbl) && AllSpaces(l) && AllSpaces(r)
    ensures Escape(tbl, l + m + r) == l + Escape(tbl, m) + r
  {
    EscapeConcat(tbl, l + m, r);
    EscapeConcat(tbl, l, m);
    EscapeSpaces(tbl, l);
    EscapeSpaces(tbl, r);
  }

  /** Trimming and escaping commute: the ends of an escaped string are the ends of the original. */
  lemma TrimEscape(tbl: seq<Entity>, s: string)
    requires WellFormedTable(tbl)
    ensures Trim(Escape(tbl, s)) == Escape(tbl, Trim(s))
  {
    var m := Trim(s);
    var l, r := TrimSplit(s);
    EscapePadded(tbl, l, m, r);
    if m != [] {
      EscapeEnds(tbl, m);
    }
    TrimPadded(l, Escape(tbl, m), r);
  }

  /** With a well-formed table, a reference at the front of `s` is the one the decoder finds. */
  lemma EntityAtFinds(tbl: seq<Entity>, i: nat, s: string)
    requires WellFormedTable(tbl) && i < |tbl| && tbl[i].text <= s
    ensures EntityAt(tbl, s) == Some(i)
  {
    var j := EntityAt(tbl, s).value;
    PrefixesOfOne(tbl[i].text, tbl[j].text, s);
  }

  /** Two prefixes of one string are prefixes of each other. */
  lemma PrefixesOfOne(a: string, b: string, s: string)
    requires a <= s && b <= s
    ensures a <= b || b <= a
  {
    if |a| <= |b| {
      assert a == s[..|a|] == b[..|a|];
    } else {
      assert b == s[..|b|] == a[..|b|];
    }
  }

  /** Decoding undoes escaping. */
  lemma {:induction false} UnescapeEscape(tbl: seq<Entity>, s: string)
    requires WellFormedTable(tbl)
    ensures Unescape(tbl, Escape(tbl, s)) == s
  {
    if s != [] {
      UnescapeEscape(tbl, s[1..]);
      UnescapeStep(tbl, s[0], Escape(tbl, s[1..]));
      assert s == [s[0]] + s[1..];
    }
  }

  /** Decoding reads one escaped character back and continues after it. */
  lemma UnescapeStep(tbl: seq<Entity>, c: char, rest: string)
    requires WellFormedTable(tbl)
    ensures Unescape(tbl, EscapeChar(tbl, c) + rest) == [c] + Unescape(tbl, rest)
  {
    var e := EscapeChar(tbl, c) + rest;
    match EntityFor(tbl, c)
    case Some(i) =>
      EntityAtFinds(tbl, i, e);
      assert e[|tbl[i].text|..] == rest;
    case None =>
      assert c != '&';
      assert EntityAt(tbl, e).None?;
      assert e[1..] == rest;
  }

  /** A character that has an entry, and occurs in no reference, never survives escaping. */
  lemma {:induction false} EscapeOmits(tbl: seq<Entity>, s: string, c: char)
    requires EntityFor(tbl, c).Some?
    requires forall i :: 0 <= i < |tbl| ==> c !in tbl[i].text
    ensures c !in Escape(tbl, s)
  {
    if s != [] {
      EscapeOmits(tbl, s[1..], c);
    }
  }

  /** In an escaped string every `&` begins a reference. */
  lemma {:induction false} EscapeAmpersands(tbl: seq<Entity>, s: string)
    requires WellFormedTable(tbl)
    ensures forall k :: 0 <= k < |Escape(tbl, s)| && Escape(tbl, s)[k] == '&' ==>
      EntityStartsAt(tbl, Escape(tbl, s), k)
  {
    if s != [] {
      var e := Escape(tbl, s);
      var head := EscapeChar(tbl, s[0]);
      var rest := Escape(tbl, s[1..]);
      assert e == head + rest;
      EscapeAmpersands(tbl, s[1..]);
      forall k | 0 <= k < |e| && e[k] == '&'
        ensures EntityStartsAt(tbl, e, k)
      {
        if k < |head| {
          assert head[k] == '&';
          EscapedHeadStarts(tbl, s[0], rest, k);
        } else {
          assert rest[k - |head|] == '&';
          EntityShift(tbl, head, rest, k - |head|);
        }
      }
    }
  }

  /** An `&` inside the escape of one character is the start of its reference. */
  lemma EscapedHeadStarts(tbl: seq<Entity>, c: char, rest: string, k: nat)
    requires WellFormedTable(tbl)
    requires k < |EscapeChar(tbl, c)| && EscapeChar(tbl, c)[k] == '&'
    ensures EntityStartsAt(tbl, EscapeChar(tbl, c) + rest, k)
  {
    match EntityFor(tbl, c)
    case Some(i) =>
      assert ValidEntity(tbl[i]);
      assert k == 0;
      assert tbl[i].text <= tbl[i].text + rest;
    case None =>
      assert false;
  }

  /** A reference starting in `rest` still starts there after a prefix is added. */
  lemma EntityShift(tbl: seq<Entity>, head: string, rest: string, k: nat)
    requires k <= |rest| && EntityStartsAt(tbl, rest, k)
    ensures EntityStartsAt(tbl, head + rest, |head| + k)
  {
    var i :| 0 <= i < |tbl| && tbl[i].text <= rest[k..];
    assert (head + rest)[|head| + k..] == rest[k..];
  }

  /** Trimming keeps references whole, since they contain no white space. */
  lemma TrimKeepsEntities(tbl: seq<Entity>, s: string)
    requires WellFormedTable(tbl)
    requires forall k :: 0 <= k < |s| && s[k] == '&' ==> EntityStartsAt(tbl, s, k)
    ensures forall k :: 0 <= k < |Trim(s)| && Trim(s)[k] == '&' ==> EntityStartsAt(tbl, Trim(s), k)
  {
    assert forall i :: 0 <= i < |tbl| ==> NoSpaces(tbl[i].text) by {
      forall i | 0 <= i < |tbl|
        ensures NoSpaces(tbl[i].text)
      {
        assert ValidEntity(tbl[i]);
      }
    }
    SliceKeepsEntities(tbl, s, LeadingSpaces(s), Trim(s));
  }

  /**
    Cutting off white space after the slice `r` of `s` starting at `a` keeps the references that start inside the
    slice whole, when no reference contains white space.
   */
  lemma SliceKeepsEntities(tbl: seq<Entity>, s: string, a: nat, r: string)
    requires a + |r| <= |s| && r == s[a..a + |r|]
    requires forall i :: 0 <= i < |tbl| ==> NoSpaces(tbl[i].text)
    requires forall q :: a + |r| <= q < |s| ==> IsSpace(s[q])
    requires forall k :: 0 <= k < |s| && s[k] == '&' ==> EntityStartsAt(tbl, s, k)
    ensures forall k :: 0 <= k < |r| && r[k] == '&' ==> EntityStartsAt(tbl, r, k)
  {
    forall k | 0 <= k < |r| && r[k] == '&'
      ensures EntityStartsAt(tbl, r, k)
    {
      assert s[a + k] == r[k];
      var i :| 0 <= i < |tbl| && tbl[i].text <= s[a + k..];
      WordInside(s, a, |r|, tbl[i].text, k);
    }
  }

  /** A word without white space that starts inside `s[a..a+n]` ends inside it when only white space follows. */
  lemma WordInside(s: string, a: nat, n: nat, t: string, k: nat)
    requires a + n <= |s| && k < n
    requires t <= s[a + k..]
    requires NoSpaces(t)
    requires forall q :: a + n <= q < |s| ==> IsSpace(s[q])
    ensures t <= s[a..a + n][k..]
  {
    PrefixChar(t, s[a + k..], n - k);
    assert k + |t| <= n;
    assert t == s[a + k..a + k + |t|];
  }

  lemma PrefixChar(t: string, u: string, m: int)
    ensures t <= u && 0 <= m < |t| ==> u[m] == t[m]
  {
  }

  /** A non-space character of `s` survives trimming. */
  lemma TrimKeepsNonSpace(s: string, k: nat)
    requires k < |s| && !IsSpace(s[k])
    ensures s[k] in Trim(s)
  {
    var a := LeadingSpaces(s);
    assert Trim(s)[k - a] == s[k];
  }

  lemma TrimKeepsChar(s: string, c: char)
    requires c in s && !IsSpace(c)
    ensures c in Trim(s)
  {
    var k :| 0 <= k < |s| && s[k] == c;
    TrimKeepsNonSpace(s, k);
  }

  /** Trimming adds no character. */
  lemma TrimOmits(s: string, c: char)
    requires c !in s
    ensures c !in Trim(s)
  {
    var a := LeadingSpaces(s);
    var r := Trim(s);
    assert forall i :: 0 <= i < |r| ==> r[i] == s[a + i];
  }

  /** A character without an entry is copied through escaping. */
  lemma {:induction false} EscapeKeeps(tbl: seq<Entity>, s: string, c: char)
    requires c in s && EntityFor(tbl, c).None?
    ensures c in Escape(tbl, s)
  {
    if s[0] != c {
      assert s == [s[0]] + s[1..];
      EscapeKeeps(tbl, s[1..], c);
    }
  }

  /** Every `&` of the escaped and trimmed text begins a reference. */
  lemma SanitizedAmpersands(tbl: seq<Entity>, s: string)
    requires WellFormedTable(tbl)
    ensures forall k :: 0 <= k < |Trim(Escape(tbl, s))| && Trim(Escape(tbl, s))[k] == '&' ==>
      EntityStartsAt(tbl, Trim(Escape(tbl, s)), k)
  {
    EscapeAmpersands(tbl, s);
    TrimKeepsEntities(tbl, Escape(tbl, s));
  }

  /** Characters that have an entry and appear in no reference are gone from the result. */
  lemma SanitizedOmits(tbl: seq<Entity>, s: string, c: char)
    requires EntityFor(tbl, c).Some?
    requires forall i :: 0 <= i < |tbl| ==> c !in tbl[i].text
    ensures c !in Trim(Escape(tbl, s))
  {
    EscapeOmits(tbl, s, c);
    TrimOmits(Escape(tbl, s), c);
  }

  /** The input to the sanitiser: `typeof input === 'string'` or not. */
  datatype JsValue = Str(s: string) | NonString

  /** The references the sanitiser as written produces: `&` and `'` only. */
  const WrittenEntities: seq<Entity> := [Entity('&', "&amp;"), Entity('\'', "&#x27;")]

  /** The five HTML references the sanitiser is evidently meant to produce. */
  const HtmlEntities: seq<Entity> := [
    Entity('&', "&amp;"), Entity('<', "&lt;"), Entity('>', "&gt;"),
    Entity('"', "&quot;"), Entity('\'', "&#x27;")
  ]

  predicate VisibleAscii(s: string) {
    forall k :: 0 <= k < |s| ==> '!' <= s[k] <= '~'
  }

  lemma EntityOk(e: Entity)
    requires |e.text| >= 2 && e.text[0] == '&' && forall k :: 1 <= k < |e.text| ==> e.text[k] != '&'
    requires VisibleAscii(e.text) && '!' <= e.ch <= '~'
    ensures ValidEntity(e)
  {
  }

  lemma SecondCharsDiffer(a: Entity, b: Entity)
    requires |a.text| >= 2 && |b.text| >= 2 && a.text[1] != b.text[1] && a.ch != b.ch
    ensures Unambiguous(a, b)
  {
    PrefixChar(a.text, b.text, 1);
    PrefixChar(b.text, a.text, 1);
  }

  lemma WrittenEntitiesWellFormed()
    ensures WellFormedTable(WrittenEntities)
  {
    var t := WrittenEntities;
    EntityOk(t[0]);
    EntityOk(t[1]);
    SecondCharsDiffer(t[0], t[1]);
  }

  lemma HtmlEntitiesWellFormed()
    ensures WellFormedTable(HtmlEntities)
  {
    HtmlEntitiesValid();
    HtmlEntitiesUnambiguous();
    assert HtmlEntities[0].ch == '&';
  }

  lemma HtmlEntitiesValid()
    ensures forall i :: 0 <= i < |HtmlEntities| ==> ValidEntity(HtmlEntities[i])
  {
    forall i | 0 <= i < |HtmlEntities|
      ensures ValidEntity(HtmlEntities[i])
    {
      HtmlEntityValid(i);
    }
  }

  lemma HtmlEntityValid(i: nat)
    requires i < |HtmlEntities|
    ensures ValidEntity(HtmlEntities[i])
  {
    EntityOk(HtmlEntities[i]);
  }

  lemma HtmlEntitiesUnambiguous()
    ensures forall i, j :: 0 <= i < j < |HtmlEntities| ==> Unambiguous(HtmlEntities[i], HtmlEntities[j])
  {
    var t := HtmlEntities;
    forall i, j | 0 <= i < j < |t|
      ensures Unambiguous(t[i], t[j])
    {
      SecondCharsDiffer(t[i], t[j]);
    }
  }

  /** The replace chain of the sanitiser, in its order, exactly as written. */
  function EscapeAsWritten(s: string): string {
    var amp := ReplaceAll(s, '&', "&amp;");
    var lt := ReplaceAll(amp, '<', "<");
    var gt := ReplaceAll(lt, '>', ">");
    var quot := ReplaceAll(gt, '"', "\"");
    ReplaceAll(quot, '\'', "&#x27;")
  }

  /** The chain as written is the one-pass escape with the `&` and `'` references only. */
  lemma {:induction false} EscapeAsWrittenIsTable(s: string)
    ensures EscapeAsWritten(s) == Escape(WrittenEntities, s)
  {
    var amp := ReplaceAll(s, '&', "&amp;");
    ReplaceAllIdentity(amp, '<');
    ReplaceAllIdentity(amp, '>');
    ReplaceAllIdentity(amp, '"');
    AmpThenApostrophe(s);
  }

  lemma {:induction false} AmpThenApostrophe(s: string)
    ensures ReplaceAll(ReplaceAll(s, '&', "&amp;"), '\'', "&#x27;") == Escape(WrittenEntities, s)
  {
    if s != [] {
      var c := s[0];
      var head := if c == '&' then "&amp;" else [c];
      assert ReplaceAll(s, '&', "&amp;") == head + ReplaceAll(s[1..], '&', "&amp;");
      ReplaceAllConcat(head, ReplaceAll(s[1..], '&', "&amp;"), '\'', "&#x27;");
      AmpThenApostrophe(s[1..]);
      if c == '&' {
        ReplaceAllAbsent("&amp;", '\'', "&#x27;");
      } else {
        assert ReplaceAll([c], '\'', "&#x27;") == (if c == '\'' then "&#x27;" else [c]) + ReplaceAll([], '\'', "&#x27;");
      }
    }
  }

  /**
    `sanitizeInput(input)` as written: a non-string gives the empty string; a string has
    `&` and `'` replaced by references (the three middle replacements change nothing) and
    is trimmed.
   */
  function SanitizeInput(input: JsValue): (r: string)
    ensures input.NonString? ==> r == ""
    ensures '\'' !in r
    ensures forall k :: 0 <= k < |r| && r[k] == '&' ==> "&amp;" <= r[k..] || "&#x27;" <= r[k..]
    ensures r != [] ==> !IsSpace(r[0]) && !IsSpace(r[|r| - 1])
  {
    match input
    case NonString => ""
    case Str(s) =>
      EscapeAsWrittenIsTable(s);
      WrittenEntitiesWellFormed();
      SanitizedOmits(WrittenEntities, s, '\'');
      SanitizedAmpersands(WrittenEntities, s);
      Trim(EscapeAsWritten(s))
  }

  /** Decoding the two references of the sanitised text gives back the trimmed input. */
  lemma SanitizeInputRoundTrip(s: string)
    ensures Unescape(WrittenEntities, SanitizeInput(Str(s))) == Trim(s)
  {
    EscapeAsWrittenIsTable(s);
    WrittenEntitiesWellFormed();
    TrimEscape(WrittenEntities, s);
    UnescapeEscape(WrittenEntities, Trim(s));
  }

  /** As written, markup passes through: any `<`, `>` or `"` in the input survives sanitising. */
  lemma SanitizeInputKeepsMarkup(s: string, c: char)
    requires c == '<' || c == '>' || c == '"'
    requires c in s
    ensures c in SanitizeInput(Str(s))
  {
    EscapeAsWrittenIsTable(s);
    EscapeKeeps(WrittenEntities, s, c);
    TrimKeepsChar(Escape(WrittenEntities, s), c);
  }

  /** The characters HTML references are spelled with. */
  predicate ReferenceChar(c: char) {
    c == '&' || c == '#' || c == ';' || 'a' <= c <= 'z' || '0' <= c <= '9'
  }

  lemma HtmlReferenceChars(i: nat)
    requires i < |HtmlEntities|
    ensures forall k :: 0 <= k < |HtmlEntities[i].text| ==> ReferenceChar(HtmlEntities[i].text[k])
  {
  }

  /** A character the HTML table escapes, and that no reference is spelled with, is gone. */
  lemma HtmlOmits(s: string, c: char)
    requires EntityFor(HtmlEntities, c).Some? && !ReferenceChar(c)
    ensures c !in Trim(Escape(HtmlEntities, s))
  {
    forall i | 0 <= i < |HtmlEntities|
      ensures c !in HtmlEntities[i].text
    {
      HtmlReferenceChars(i);
    }
    SanitizedOmits(HtmlEntities, s, c);
  }

  lemma SanitizeHtmlShape(s: string)
    ensures var r := Trim(Escape(HtmlEntities, s));
      && '<' !in r && '>' !in r && '"' !in r && '\'' !in r
      && forall k :: 0 <= k < |r| && r[k] == '&' ==> EntityStartsAt(HtmlEntities, r, k)
  {
    HtmlNoMarkup(s);
    HtmlEntitiesWellFormed();
    SanitizedAmpersands(HtmlEntities, s);
  }

  lemma HtmlNoMarkup(s: string)
    ensures var r := Trim(Escape(HtmlEntities, s));
      '<' !in r && '>' !in r && '"' !in r && '\'' !in r
  {
    HtmlOmits(s, '<');
    HtmlOmits(s, '>');
    HtmlOmits(s, '"');
    HtmlOmits(s, '\'');
  }

  /**
    The sanitiser as evidently intended: `&`, `<`, `>`, `"` and `'` all replaced by
    their HTML references, then trimmed.
   */
  function SanitizeHtml(input: JsValue): (r: string)
    ensures input.NonString? ==> r == ""
    ensures '<' !in r && '>' !in r && '"' !in r && '\'' !in r
    ensures forall k :: 0 <= k < |r| && r[k] == '&' ==> EntityStartsAt(HtmlEntities, r, k)
    ensures r != [] ==> !IsSpace(r[0]) && !IsSpace(r[|r| - 1])
  {
    match input
    case NonString => ""
    case Str(s) =>
      SanitizeHtmlShape(s);
      Trim(Escape(HtmlEntities, s))
  }

  /** Decoding the five references of the sanitised text gives back the trimmed input. */
  lemma SanitizeHtmlRoundTrip(s: string)
    ensures Unescape(HtmlEntities, SanitizeHtml(Str(s))) == Trim(s)
  {
    HtmlEntitiesWellFormed();
    TrimEscape(HtmlEntities, s);
    UnescapeEscape(HtmlEntities, Trim(s));
  }

  // ---------------------------------------------------------- share link

  const MessagePrefix: string := "Hi, I played your game and won "
  const CodeLabel: string := ". My code is "
  const WhatsAppBase: string := "https://wa.me/"
  const TextQuery: string := "?text="

  function ShareMessage(reward: string, code: string): string {
    MessagePrefix + reward + CodeLabel + code
  }

  /**
    `generateWhatsAppURL(reward, code, phoneNumber)`, with `encode` standing for
    `encodeURIComponent` and the empty phone number meaning none was given.
   */
  function GenerateWhatsAppURL(reward: string, code: string, phone: string, encode: string -> string): (url: string)
    ensures WhatsAppBase <= url
    ensures url[|WhatsAppBase|..] == phone + TextQuery + encode(ShareMessage(reward, code))
  {
    var encoded := encode(ShareMessage(reward, code));
    if phone != "" then WhatsAppBase + phone + TextQuery + encoded
    else WhatsAppBase + TextQuery + encoded
  }

  /** Reads reward and code back out of a share message, splitting at its last `.`. */
  function ParseShareMessage(m: string): Option<(string, string)> {
    if !(MessagePrefix <= m) then None
    else match LastIndexOf(m, '.')
      case None => None
      case Some(d) =>
        if d >= |MessagePrefix| && CodeLabel <= m[d..]
        then Some((m[|MessagePrefix|..d], m[d + |CodeLabel|..]))
        else None
  }

  /** Reads the phone number and the encoded message back out of a share link. */
  function ParseWhatsAppURL(url: string): Option<(string, string)> {
    if !(WhatsAppBase <= url) then None
    else
      var rest := url[|WhatsAppBase|..];
      match IndexOf(rest, '?')
      case None => None
      case Some(q) =>
        if TextQuery <= rest[q..] then Some((rest[..q], rest[q + |TextQuery|..])) else None
  }

  /** A message whose code has no `.` (claim codes are letters and digits) parses back. */
  lemma ShareMessageRoundTrip(reward: string, code: string)
    requires '.' !in code
    ensures ParseShareMessage(ShareMessage(reward, code)) == Some((reward, code))
  {
    var m := ShareMessage(reward, code);
    var head := MessagePrefix + reward;
    var tail := CodeLabel[1..] + code;
    assert '.' !in CodeLabel[1..];
    assert m == head + ['.'] + tail;
    LastIndexOfBefore(head, '.', tail);
    var d := |head|;
    assert m[d..] == CodeLabel + code;
    assert m[..|MessagePrefix|] == MessagePrefix;
    assert m[|MessagePrefix|..d] == reward;
    assert m[d + |CodeLabel|..] == code;
  }

  /** The random part of a code is spelled from the alphabet alone, whatever the draws. */
  lemma {:induction false} RandomPartNoDot(draws: seq<real>)
    ensures '.' !in RandomPart(draws)
  {
    if draws != [] {
      RandomPartNoDot(draws[1..]);
      CodeCharNoDot(draws[0]);
      assert RandomPart(draws) == CodeChar(draws[0]) + RandomPart(draws[1..]);
    }
  }

  lemma CodeCharNoDot(u: real)
    ensures '.' !in CodeChar(u)
  {
    assert '.' !in CodeAlphabet;
  }

  /** A generated claim code holds no `.`: letters, digits and clock digits only. */
  lemma GeneratedCodeNoDot(draws: seq<real>, now: nat)
    ensures '.' !in GenerateUniqueCode(draws, now)
  {
    RandomPartNoDot(draws);
    ClockSuffixDigits(now);
    var r, c := RandomPart(draws), ClockSuffix(now);
    assert GenerateUniqueCode(draws, now) == r + c;
  }

  /** So the share message of any generated code reads back into its reward and code. */
  lemma GeneratedCodeShares(reward: string, draws: seq<real>, now: nat)
    ensures var code := GenerateUniqueCode(draws, now);
      ParseShareMessage(ShareMessage(reward, code)) == Some((reward, code))
  {
    GeneratedCodeNoDot(draws, now);
    ShareMessageRoundTrip(reward, GenerateUniqueCode(draws, now));
  }

  /** A link built for a phone number without `?` parses back into that number and the message. */
  lemma WhatsAppURLRoundTrip(reward: string, code: string, phone: string, encode: string -> string)
    requires '?' !in phone
    ensures ParseWhatsAppURL(GenerateWhatsAppURL(reward, code, phone, encode))
      == Some((phone, encode(ShareMessage(reward, code))))
  {
    var url := GenerateWhatsAppURL(reward, code, phone, encode);
    LinkParses(url, phone, encode(ShareMessage(reward, code)));
  }

  /** Any link of the form base, number, `?text=`, message parses into its number and message. */
  lemma LinkParses(url: string, phone: string, encoded: string)
    requires '?' !in phone
    requires WhatsAppBase <= url && url[|WhatsAppBase|..] == phone + TextQuery + encoded
    ensures ParseWhatsAppURL(url) == Some((phone, encoded))
  {
    var rest := phone + TextQuery + encoded;
    QuerySplit(phone, encoded);
    assert rest[|phone|..] == TextQuery + encoded;
    assert rest[..|phone|] == phone;
  }

  /** The first `?` after a number without one is the start of `?text=`. */
  lemma QuerySplit(phone: string, encoded: string)
    requires '?' !in phone
    ensures IndexOf(phone + TextQuery + encoded, '?') == Some(|phone|)
  {
    assert phone + TextQuery + encoded == phone + ['?'] + (TextQuery[1..] + encoded);
    IndexOfAfter(phone, '?', TextQuery[1..] + encoded);
  }
}
